=== FILE: README.md ===
# nsnews: a Dafny model of the client-side logic

nsnews is a small community site: a React front-end over a hosted backend
(tables `posts`, `likes`, `comments`, `polls`, `votes`, `users`). Nearly all of its
behaviour is rendering and backend calls; the part with rules of its own is a
handful of pure derivations inside the components. This project models those
derivations and proves what they promise:

- **The team poll tally** (`PollTally`, `PollScreens`, `TallyExamples`), written
  twice in the source, once in the leaderboard widget and once on the polls page:
  counting the vote rows per team, the total, the percentages, the ranking by a
  stable sort (ties keep roster order), the signed-in user's vote, the fallback
  on backend errors, and the vote guard (signed out, already voted, missing poll).
- **The post card's edit mode** (`PostEditing`): tags, pending uploads, media
  marked for removal, the save's validation, the final media list, the storage
  files to delete, the "edited" mark, the media preview and the video test.
- **Likes and comments** (`PostInteractions`): the like summary, the like toggle
  and what it does to the like rows, the comment guard and the send button.
- **The site gate** (`WifiGate`): one flag set by entering the site password.
- **The profile page** (`Profile`): which user row a route username selects, the
  handle shown for it, and the count of likes the user's posts received.

Shared pieces: the table rows (`Rows`), the ECMAScript string operations the
code relies on (`JsStrings`: `trim`, `includes`, `split(c)[0]`, `split(c).pop()`)
and generic list operations (`Seqs`).

Modelling choices:

- Backend calls are not modelled as I/O. A query's result is a parameter (the
  fetched rows, or `PollFetch.BackendError`), and a mutation is returned as data
  (`VoteInsert`, `LikeOutcome`, `CommentInsert`, `PostUpdate`). Where a property
  needs the backend's effect, a small reference function states it
  (`PostInteractions.ApplyLike`, `PostEditing.ApplyUpdate`, `PollScreens.Stored`).
- The roster is a parameter of the tally; `PollScreens.Teams` holds the
  fourteen names both screens declare.
- The total is `Object.values` of a record keyed by team name, so it sums each
  distinct roster name once. The model keeps that (via `Seqs.Dedup`) and proves it
  equals the number of votes naming a roster team, with no precondition on the
  roster. The sums of the ranked counts and percentages match the total and 100
  for duplicate-free rosters, which the fourteen-team roster is.
- The sort is ECMAScript's `Array.prototype.sort`, which ECMA-262 requires to be
  stable since its 2019 edition. It is modelled as a stable insertion sort,
  and `PollTally.StableSortIsUnique` shows that any stable ranking would give the
  same list.
- Percentages are exact rationals (`real`), not IEEE doubles.
- `user.email || 'Unknown'` treats a missing and an empty e-mail alike
  (`Rows.EmailOrUnknown`).
- The site password is a constant in the source. Here it is the `secret` field
  of the gate, and its value is not part of the model.

## Model

| member | source | states |
|---|---|---|
| Rows.EmailOrUnknown | src/components/PollLeaderboard.tsx:125 | the written e-mail is the user's own when present and non-empty, otherwise "Unknown"; never empty |
| JsStrings.Trim | src/components/PostCard.tsx:192 | the result is a slice of the input with only white space cut from either end, and neither of its ends is white space |
| JsStrings.TrimEmptyIff | src/components/PostCard.tsx:192 | `!s.trim()` holds exactly when the string is all white space |
| JsStrings.TrimTrimmed | src/components/PostCard.tsx:136 | trimming a string with no white space at its ends gives it back unchanged |
| JsStrings.Includes | src/components/PostCard.tsx:252 | true exactly when the pattern occurs at some position of the string |
| JsStrings.BeforeFirst | src/pages/ProfilePage.tsx:27 | the longest prefix without the separator; the separator follows it unless the string ends |
| JsStrings.AfterLast | src/components/PostCard.tsx:226 | the longest suffix without the separator; the separator precedes it unless it is the whole string |
| JsStrings.AfterLastOfJoin | src/components/PostCard.tsx:226 | the last piece after a separator is recovered from "prefix / piece" whatever the prefix |
| JsStrings.BeforeFirstOfJoin | src/pages/ProfilePage.tsx:150 | the first piece before a separator is recovered from "piece @ rest" whatever the rest |
| Seqs.RemoveAll | src/components/PostCard.tsx:148 | filtering out a value removes every occurrence of it and keeps every other element |
| Seqs.RemoveAllAt | src/components/PostCard.tsx:145-150 | on a duplicate-free list, filtering out the element at position i deletes exactly that position |
| Seqs.DropIndex | src/components/PostCard.tsx:160 | filtering by index drops exactly the element at a valid index and nothing at an invalid one |
| Seqs.Dedup | src/components/PollLeaderboard.tsx:73-78 | the keys of the count record: duplicate-free, with the same members as the roster |
| PollTally.FindVote | src/components/PollLeaderboard.tsx:70 | absent exactly when no row is the user's; otherwise the user's first row |
| PollTally.FindVoteAppend | src/components/PollLeaderboard.tsx:70 | a row added later never displaces the user's first vote, and becomes it when the user had none |
| PollTally.VotesFor | src/components/PollLeaderboard.tsx:74 | a team's count is at most the number of rows, and 0 exactly when no row names the team |
| PollTally.Percent | src/components/PollLeaderboard.tsx:84 | 0 when there are no votes; otherwise the share times the total is the count times 100 |
| PollTally.TotalVotes | src/components/PollLeaderboard.tsx:78 | the total over the record's values is the number of vote rows naming a roster team |
| PollTally.VotesForAtMostTotal | src/components/PollLeaderboard.tsx:72-78 | a roster team's count never exceeds the total |
| PollTally.PercentBounded | src/components/PollLeaderboard.tsx:84 | a count within the total is a percentage between 0 and 100 |
| PollTally.Unranked | src/components/PollLeaderboard.tsx:81-84 | one line per roster team in roster order, carrying that team's count and share of the total |
| PollTally.SortByVotes | src/components/PollLeaderboard.tsx:85 | the sorted list is ordered by non-increasing count and is a permutation of the input |
| PollTally.SortStable | src/components/PollLeaderboard.tsx:85 | for every count, the lines with that count appear in the same order after the sort as before |
| PollTally.Tally | src/components/PollLeaderboard.tsx:70-85 | user vote, total, and a ranking that permutes the roster, decreases by count, keeps roster order within a count, and gives each team its count and share |
| PollTally.RankedSumsMatchTotal | src/components/PollLeaderboard.tsx:78-84 | for a duplicate-free roster the ranked counts add up to the total, and the percentages to 100 when there are votes |
| PollTally.PercentagesBounded | src/components/PollLeaderboard.tsx:84 | every ranked percentage is between 0 and 100, and all are 0 when there is no vote |
| PollTally.VotesForPermutation | src/components/PollLeaderboard.tsx:74 | a team's count depends only on the multiset of vote rows |
| PollTally.VoteOrderIrrelevant | src/components/PollLeaderboard.tsx:72-85 | reordering the fetched vote rows changes neither the ranking nor the total |
| PollTally.SameCountsSameRanking | src/components/PollLeaderboard.tsx:81-85 | vote lists that give every roster team the same count give the same ranking and total |
| PollTally.UnknownTeamIgnored | src/components/PollLeaderboard.tsx:72-78 | a vote for a name outside the roster changes neither ranking nor total |
| PollTally.VoteAddsOne | src/components/PollLeaderboard.tsx:74 | one more vote row raises its team's count by one and leaves every other count alone |
| PollTally.RankedUnique | src/components/PollLeaderboard.tsx:85 | two ranked lists with the same per-count sub-lists are equal |
| PollTally.StableSortIsUnique | src/components/PollLeaderboard.tsx:85 | any ranked list that keeps each count's lines in input order is exactly the sorted result |
| TallyExamples.RedBlueExample | src/components/PollLeaderboard.tsx:72-85 | votes Red, Blue, Red over roster Red, Blue give Red 2 (two thirds), then Blue 1 (one third), total 3 |
| TallyExamples.TieKeepsRosterOrder | src/components/PollLeaderboard.tsx:85 | with A and B tied on 2 votes and C on 1, the ranking is A, B, C whatever the order of the votes |
| TallyExamples.NoVotesExample | src/components/PollLeaderboard.tsx:72-85 | with no votes the roster Red, Blue is listed in order with 0 votes and 0 percent each, total 0 |
| TallyExamples.UserVoteExample | src/components/PollLeaderboard.tsx:69 | the voter's own row is found as their vote, and another user has none |
| TallyExamples.TieExample | src/components/PollLeaderboard.tsx:85 | the votes B, A, C, B, A rank A, B, C |
| PollScreens.TeamsDistinct | src/components/PollLeaderboard.tsx:9-24 | the roster has fourteen different names |
| PollScreens.ZeroStandings | src/components/PollLeaderboard.tsx:97-101 | the fallback lists the roster in order |
| PollScreens.Fallback | src/components/PollLeaderboard.tsx:94-110 | no poll, no votes, no user vote, total 0, and the roster in order with every count and percentage 0 |
| PollScreens.LeaderboardData | src/components/PollLeaderboard.tsx:36-110 | on fetched rows (the tally `Computed`, src/components/PollLeaderboard.tsx:69-91) it carries the poll, the rows, their roster total, the signed-in user's first vote row (none when signed out) and the tally's ranking; on an error no poll, no user vote and total 0; either way a ranked permutation of the roster |
| PollScreens.PollsPageData | src/pages/PollsPage.tsx:31-94 | no data exactly on an error; otherwise the poll, the rows, their roster total, the signed-in user's first vote row (none when signed out), and the tally's ranking, a ranked permutation of the roster |
| PollScreens.FallbackIsEmptyPoll | src/components/PollLeaderboard.tsx:94-110 | on a backend error the widget shows what a poll with no votes shows: roster order, all zero, total 0, no user vote |
| PollScreens.CopiesAgree | src/pages/PollsPage.tsx:61-92 | the page's tally is a copy of the widget's, so both share one definition; the screens differ only on an error, where only the widget has data |
| PollScreens.HandleVote | src/components/PollLeaderboard.tsx:115-152 | signed out: sign-up toast on the widget, nothing on the page; already voted: rejected; an insert is sent exactly when signed in, not yet voted and a poll is loaded, with the user's id, e-mail and team; signed in, not yet voted but no poll loaded: the "failed to record vote" rejection |
| PollScreens.VoteClick | src/pages/PollsPage.tsx:194-217 | a signed-out click raises the sign-up toast; a second vote is rejected; an insert is sent exactly when signed in, not yet voted and a poll is loaded, with the user's id, e-mail and team; signed in, not yet voted but no poll loaded: the "failed to record vote" rejection |
| PollScreens.ClicksAgree | src/pages/PollsPage.tsx:122-134 | a click on either screen leads to the same outcome, the page's signed-out button raising the toast itself |
| PollScreens.VoteButtonDisabled | src/pages/PollsPage.tsx:199 | disabled once the user has a vote; enabled when nothing is pending and the user has none |
| PollScreens.AcceptedVoteIsCounted | src/components/PollLeaderboard.tsx:115-152 | after an accepted vote and reload: the user's vote is the new row, that team has one more vote, others are unchanged, the total rises by one for a roster team, and a second vote is rejected with the button disabled |
| PollScreens.VotesInRosterAppend | src/components/PollLeaderboard.tsx:78 | one more vote row raises the total by one exactly when it names a roster team |
| PostEditing.ToggleEdit | src/components/PostCard.tsx:120-133 | toggling flips edit mode; leaving it resets the form to the post and clears removals and pending files |
| PostEditing.AddTag | src/components/PostCard.tsx:135-143 | the trimmed input is appended and the input cleared only when it is non-blank and not already a tag; otherwise nothing changes |
| PostEditing.RemoveTag | src/components/PostCard.tsx:145-150 | the tag is gone and every other tag stays |
| PostEditing.AddTagKeepsTagsDistinct | src/components/PostCard.tsx:135-143 | adding keeps a duplicate-free tag list duplicate-free, and any new tag is non-empty and trimmed |
| PostEditing.AddThenRemoveTag | src/components/PostCard.tsx:135-150 | removing the tag just added restores the tag list |
| PostEditing.RemoveTagAt | src/components/PostCard.tsx:145-150 | on a duplicate-free tag list removal deletes exactly that tag's position |
| PostEditing.SelectFiles | src/components/PostCard.tsx:152-157 | picked files are appended after the pending ones |
| PostEditing.RemoveNewFile | src/components/PostCard.tsx:159-161 | removing a pending file drops exactly that position |
| PostEditing.MarkForRemoval | src/components/PostCard.tsx:163-165 | the URL is appended to the removal list, after every earlier entry, even when already marked |
| PostEditing.RestoreMedia | src/components/PostCard.tsx:167-169 | the URL leaves the removal list and every other URL stays |
| PostEditing.MarkThenRestore | src/components/PostCard.tsx:163-169 | marking a URL and restoring it leaves the removal list as it was |
| PostEditing.KeepUnmarked | src/components/PostCard.tsx:205 | the kept URLs are exactly the post's URLs not marked for removal |
| PostEditing.KeepAllUnmarked | src/components/PostCard.tsx:205 | with nothing marked every existing URL is kept in order |
| PostEditing.FinalMediaUrls | src/components/PostCard.tsx:204-207 | the post's unmarked URLs first, in their order (the in-order filter `KeepUnmarked`), then exactly the uploaded ones; nothing marked survives and nothing unmarked is lost |
| PostEditing.FinalMediaDropsMarked | src/components/PostCard.tsx:204-207 | marking one of the post's media drops exactly that position; the other URLs keep their order and the uploads follow |
| PostEditing.FilesToDelete | src/components/PostCard.tsx:224-235 | the storage names are the non-empty last path segments of the marked URLs, every one of them (order and repetition unstated, the removal taking a set of paths) |
| PostEditing.DeletesTheStoredFile | src/components/PostCard.tsx:226 | removing a public URL deletes the file name it was stored under |
| PostEditing.SaveEdit | src/components/PostCard.tsx:191-248 | rejected with "Title and content are required" exactly when title or content is blank; otherwise writes the trimmed title and content of the form, the tags, the final media and the time, deletes the marked files, and leaves edit mode keeping the typed form |
| PostEditing.SavedPostIsEditedAndValid | src/components/PostCard.tsx:118-241 | a saved post shows "edited" exactly when the save time differs from its creation time, and reopening the same card's editor and saving with no change is accepted and writes the post's title, content, tags and media unchanged |
| PostEditing.EditedMarkAfterUpdate | src/components/PostCard.tsx:118 | after an update the "edited" mark shows exactly when the update time differs from the unchanged creation time |
| PostEditing.FirstEditStartsFromPost | src/components/PostCard.tsx:34-42 | a fresh card opens its editor on the post's own form with nothing marked or pending, the same state cancel-and-re-enter gives, and saving at once keeps the post's media |
| PostEditing.CancelRestoresPost | src/components/PostCard.tsx:120-133 | cancelling then re-entering edit mode starts again from the post itself |
| PostEditing.PreviewUrls | src/components/PostCard.tsx:473 | a prefix of the media: all of them while editing, otherwise the first four or fewer |
| PostEditing.HiddenCount | src/components/PostCard.tsx:474-476 | the "+n more" tile shows exactly outside edit mode with more than four media, and counts the media not shown |
| PostEditing.PreviewAccountsForAll | src/components/PostCard.tsx:471-478 | the card shows a prefix of the media, at most four outside edit mode, and the "+n more" tile counts the rest |
| PostEditing.IsVideo | src/components/PostCard.tsx:252 | a URL is a video exactly when ".mp4", ".mov" or ".avi" occurs somewhere in it |
| PostEditing.MarkerAnywhereIsVideo | src/pages/PostDetail.tsx:149 | a marker in the middle of a URL also makes it a video |
| PostInteractions.LikedBy | src/pages/PostDetail.tsx:63 | true exactly when some like row has the user's id |
| PostInteractions.Summarize | src/pages/PostDetail.tsx:63-64 | the count is the number of rows; liked exactly when a user is signed in and owns one |
| PostInteractions.HandleLike | src/pages/PostDetail.tsx:69-91 | signed out: the sign-in toast; a user who likes the post deletes the pair's likes; anyone else inserts one, for this post and user |
| PostInteractions.DeletePair | src/pages/PostDetail.tsx:74-78 | exactly the rows of other post/user pairs remain, and the count drops by the pair's rows |
| PostInteractions.ToggleFlipsLike | src/components/PostCard.tsx:76-115 | after a click and reload the user's liked flag is flipped; a like adds one to the count, an unlike removes the user's rows |
| PostInteractions.HandleComment | src/pages/PostDetail.tsx:101-146 | blank text is ignored; otherwise a signed-out user gets the sign-in toast; otherwise the trimmed, non-empty comment is inserted with the user's id and e-mail |
| PostInteractions.CommentButtonDisabled | src/pages/PostDetail.tsx:274 | disabled exactly when the `submittingComment` flag is set or the text is all white space; the handler (lines 143-145) clears the flag before the insert completes, so in practice only blank text disables it |
| PostInteractions.EnabledCommentButtonActs | src/pages/PostDetail.tsx:134-146 | with nothing being sent, the button (line 274) is disabled exactly when pressing it would be ignored, and for a signed-in user enabled exactly when pressing it sends the comment |
| WifiGate.Init | src/contexts/WifiGateContext.tsx:13-21 | the provider starts closed, and its gate accepts exactly the site password |
| WifiGate.Run | src/contexts/WifiGateContext.tsx:15-21 | a series of attempts never changes the password, and attempts that never name it leave a closed gate as it was |
| WifiGate.Authenticate | src/contexts/WifiGateContext.tsx:15-21 | accepted exactly when the password is the site's; acceptance opens the gate, refusal changes nothing |
| WifiGate.RunMonotone | src/contexts/WifiGateContext.tsx:15-21 | once open the gate stays open, and the password never changes |
| WifiGate.RunPassesIff | src/contexts/WifiGateContext.tsx:13-21 | from a closed gate, as the provider starts, a series of attempts opens the gate exactly when one of them is the site password |
| WifiGate.GateOpensIff | src/contexts/WifiGateContext.tsx:13-21 | starting from the provider's initial state, the gate opens exactly when some attempt is the site password |
| Profile.Handle | src/pages/ProfilePage.tsx:150 | the e-mail up to its first "@", the whole e-mail when it has none |
| Profile.HandleOfAddress | src/pages/ProfilePage.tsx:150 | the handle of "name@domain" is the name |
| Profile.FindExact | src/pages/ProfilePage.tsx:27 | absent exactly when no row's handle is the username; otherwise the first row whose handle is |
| Profile.SelectProfile | src/pages/ProfilePage.tsx:27 | "not found" exactly when there are no rows; the first exact handle match wins, else the first row |
| Profile.LikesOn | src/pages/ProfilePage.tsx:103-109 | at most the number of like rows, all of them exactly when each is on one of the posts |
| Profile.LikesReceived | src/pages/ProfilePage.tsx:87-112 | 0 without an e-mail or without posts, never more than the like rows |
| Profile.LikesReceivedIsSumOverPosts | src/pages/ProfilePage.tsx:100-109 | the likes received are the sum of each post's like count |

## Left out

- Backend I/O: every query and mutation is a parameter or a returned value; network errors other than the poll fetch are not modelled.
- Poll fetch-or-create (src/components/PollLeaderboard.tsx:36-59, src/pages/PollsPage.tsx:35-58): modelled only as its outcome, a poll with its vote rows or an error. The polls page creates a poll whenever the read returns none, even when the read failed; the model does not distinguish the two.
- Floating point: percentages are exact rationals, so rounding of doubles is not modelled.
- Uploads: the random file names and the upload calls are left out; the uploaded public URLs are a parameter of `PostEditing.SaveEdit`.
- Dates: creation and update times are opaque strings given as parameters.
- Toasts other than the guards' messages, pending flags, loading states, navigation and query invalidation (the reload after a mutation is modelled as a re-run of the derivation on the new rows).
- The profile query's case-insensitive prefix filter (`ilike`) runs in the backend; the fetched rows are a parameter.
- The comment count on the post card (src/components/PostCard.tsx:61-72) is the number of fetched rows and carries no rule of its own.
- The backend's uniqueness rules (one vote per user, one like per user and post) are not assumed; the lemmas hold without them.
- The site password's value.
- Authentication, the user settings page, the home page's feed, routing and layout (src/contexts/AuthContext.tsx, src/pages/HomePage.tsx, src/pages/ProfileSettings.tsx, src/App.tsx, src/components/Layout.tsx, src/components/AuthModal.tsx, src/components/WifiGate.tsx, src/pages/WifiGatePage.tsx): not part of this model.
- PostInteractions.ToggleFlipsLike: stated for a post's fetched like rows only (every row has that post's id), which is what the like query returns.
- The code does not check for repeated roster names: the total sums each distinct name once (`Seqs.Dedup`), while the ranked list repeats a repeated name. The model follows the code.
- PostEditing.FilesToDelete: states which file names are deleted, not their order or repetition, because the storage removal treats its list as a set of paths.

=== FILE: polls.dfy ===
/** The two screens that show the team poll, the leaderboard widget
    (src/components/PollLeaderboard.tsx) and the polls page (src/pages/PollsPage.tsx).
    Each carries its own copy of the roster, of the tally and of the vote guard; the
    copies differ only in how errors and signed-out clicks are reported. */
module PollScreens {
  import opened Rows
  import opened Seqs
  import opened PollTally

  /** The fixed roster both screens declare. */
  const Teams: seq<string> := [
    "WTF (Team Tanisha)",
    "Team Tara",
    "Team Wei-Rong",
    "Sugar Gliders (Team Sara)",
    "Team Emily",
    "Team Nikki",
    "Ctrl+Alt+Elite (Team Michelle)",
    "Team Isabelle",
    "Team Josie",
    "Free Agents Team Lana",
    "Debby 2.0 (Team Debby)",
    "Team Dawn",
    "Team Aditi",
    "Team Devisha"
  ]

  /** The roster has fourteen different names, so the results about duplicate-free
      rosters (sums of counts and of percentages) apply to both screens. */
  lemma TeamsDistinct()
    ensures |Teams| == 14 && NoDup(Teams)
  {
  }

  /** The outcome of the backend round trips that precede the tally: the active poll
      and its vote rows, or an error from any of them. */
  datatype PollFetch = Fetched(poll: Poll, votes: seq<Vote>) | BackendError

  /** The object the poll query resolves to. */
  datatype PollData = PollData(
    poll: Option<Poll>, votes: seq<Vote>, userVote: Option<Vote>,
    sortedTeams: seq<Standing>, totalVotes: nat)

  /** The successful end of the query: the fetched rows and their tally. */
  function Computed(poll: Poll, votes: seq<Vote>, roster: seq<string>, user: Option<User>): PollData {
    var t := Tally(roster, votes, user);
    PollData(Some(poll), votes, t.userVote, t.ranked, t.totalVotes)
  }

  /** Every team with 0 votes and 0 percent, in roster order. */
  function ZeroStandings(roster: seq<string>): (r: seq<Standing>)
    ensures Names(r) == roster
    ensures forall s | s in r :: s.votes == 0 && s.percentage == 0.0
  {
    if roster == [] then [] else [Standing(roster[0], 0, 0.0)] + ZeroStandings(roster[1..])
  }

  /** The leaderboard's catch block: no poll, no votes, no user vote, the roster in
      order with zero counts, total 0. */
  function Fallback(roster: seq<string>): (d: PollData)
    ensures d.poll.None? && d.votes == [] && d.userVote.None? && d.totalVotes == 0
    ensures Names(d.sortedTeams) == roster
    ensures forall s | s in d.sortedTeams :: s.votes == 0 && s.percentage == 0.0
  {
    PollData(None, [], None, ZeroStandings(roster), 0)
  }

  /** PollLeaderboard's query: any backend error is caught and replaced by the fallback. */
  function LeaderboardData(roster: seq<string>, fetch: PollFetch, user: Option<User>): (d: PollData)
    ensures fetch.Fetched? ==> && d.poll == Some(fetch.poll) && d.votes == fetch.votes
                               && d.totalVotes == VotesInRoster(fetch.votes, roster)
    ensures fetch.Fetched? && user.Some? ==> d.userVote == FindVote(fetch.votes, user.value.id)
    ensures fetch.Fetched? && user.None? ==> d.userVote.None?
    ensures fetch.Fetched? ==> d.sortedTeams == Tally(roster, fetch.votes, user).ranked
    ensures fetch.BackendError? ==> d.poll.None? && d.userVote.None? && d.totalVotes == 0
    ensures RankedByVotes(d.sortedTeams) && multiset(Names(d.sortedTeams)) == multiset(roster)
  {
    match fetch
    case Fetched(poll, votes) => Computed(poll, votes, roster, user)
    case BackendError =>
      var z := ZeroStandings(roster);
      assert RankedByVotes(z) by {
        forall i, j | 0 <= i < j < |z| ensures z[i].votes >= z[j].votes {
          assert z[j] in z;
        }
      }
      Fallback(roster)
  }

  /** PollsPage's query: an error is not caught, so the query yields no data. */
  function PollsPageData(roster: seq<string>, fetch: PollFetch, user: Option<User>): (r: Option<PollData>)
    ensures r.None? <==> fetch.BackendError?
    ensures r.Some? ==> && r.value.poll == Some(fetch.poll) && r.value.votes == fetch.votes
                        && r.value.totalVotes == VotesInRoster(fetch.votes, roster)
                        && r.value.userVote == (if user.Some? then FindVote(fetch.votes, user.value.id) else None)
                        && r.value.sortedTeams == Tally(roster, fetch.votes, user).ranked
                        && RankedByVotes(r.value.sortedTeams)
                        && multiset(Names(r.value.sortedTeams)) == multiset(roster)
  {
    match fetch
    case Fetched(poll, votes) => Some(Computed(poll, votes, roster, user))
    case BackendError => None
  }

  lemma {:induction false} UnrankedNoVotes(teams: seq<string>)
    ensures Unranked(teams, [], 0) == ZeroStandings(teams)
  {
    if teams != [] {
      UnrankedNoVotes(teams[1..]);
    }
  }

  /** Sorting a list whose counts are all equal leaves it as it is. */
  lemma {:induction false} SortZeroStandings(teams: seq<string>)
    ensures SortByVotes(ZeroStandings(teams)) == ZeroStandings(teams)
  {
    if teams != [] {
      var z := ZeroStandings(teams);
      assert z[1..] == ZeroStandings(teams[1..]);
      SortZeroStandings(teams[1..]);
      assert z[1..] == [] || z[0].votes >= z[1..][0].votes;
    }
  }

  /** On a backend error the leaderboard shows exactly what a poll without any vote
      would show: the roster in order, every count and percentage 0, total 0, and
      no user vote, whoever is signed in. */
  lemma FallbackIsEmptyPoll(roster: seq<string>, user: Option<User>)
    ensures LeaderboardData(roster, BackendError, user).sortedTeams == Tally(roster, [], user).ranked
    ensures LeaderboardData(roster, BackendError, user).totalVotes == Tally(roster, [], user).totalVotes == 0
    ensures LeaderboardData(roster, BackendError, user).userVote == Tally(roster, [], user).userVote == None
    ensures Names(LeaderboardData(roster, BackendError, user).sortedTeams) == roster
    ensures forall s | s in LeaderboardData(roster, BackendError, user).sortedTeams :: s.votes == 0 && s.percentage == 0.0
  {
    var total := TotalVotes(roster, []);
    assert total == 0;
    UnrankedNoVotes(roster);
    SortZeroStandings(roster);
  }

  /** The polls page's tally (src/pages/PollsPage.tsx:69-84) is a line-for-line copy
      of the leaderboard's (src/components/PollLeaderboard.tsx:70-85), so the model
      gives both the one definition `Computed`, and this lemma records what follows
      from that: the screens differ only in error handling, where the page yields no
      data and the leaderboard its fallback. */
  lemma CopiesAgree(roster: seq<string>, fetch: PollFetch, user: Option<User>)
    ensures fetch.Fetched? ==> PollsPageData(roster, fetch, user) == Some(LeaderboardData(roster, fetch, user))
    ensures fetch.BackendError? ==> PollsPageData(roster, fetch, user).None?
    ensures fetch.Fetched? ==> LeaderboardData(roster, fetch, user).sortedTeams == Tally(roster, fetch.votes, user).ranked
  {
  }

  // ---------------------------------------------------------------------------
  // Voting

  /** Which screen a vote is cast from. */
  datatype Screen = Leaderboard | PollsPage

  /** The row the vote mutation inserts. */
  datatype VoteInsert = VoteInsert(pollId: string, userId: string, email: string, teamName: string)

  /** What a click on a vote button leads to: nothing, a toast with an error, or an
      insert sent to the backend. */
  datatype VoteOutcome = NoAction | Rejected(message: string) | Submitted(row: VoteInsert)

  const SignUpPrompt: string := "Please sign up to vote! Use the Sign Up / Login button in the top right."
  const AlreadyVotedMessage: string := "You have already voted"
  const VoteFailedMessage: string := "Failed to record vote"

  /** `handleVote(team)` followed, when it proceeds, by the mutation's own checks.
      `data` is absent while the query has produced nothing. A missing poll makes the
      mutation throw, which its error handler turns into the "failed" toast. */
  function HandleVote(screen: Screen, user: Option<User>, data: Option<PollData>, team: string): (o: VoteOutcome)
    ensures user.None? ==> o == (if screen == Leaderboard then Rejected(SignUpPrompt) else NoAction)
    ensures user.Some? && data.Some? && data.value.userVote.Some? ==> o == Rejected(AlreadyVotedMessage)
    ensures o.Submitted? <==> user.Some? && data.Some? && data.value.userVote.None? && data.value.poll.Some?
    ensures user.Some? && !(data.Some? && data.value.userVote.Some?) && (data.None? || data.value.poll.None?) ==>
              o == Rejected(VoteFailedMessage)
    ensures o.Submitted? ==>
              o.row == VoteInsert(data.value.poll.value.id, user.value.id, EmailOrUnknown(user.value), team)
  {
    if user.None? then
      (if screen == Leaderboard then Rejected(SignUpPrompt) else NoAction)
    else if data.Some? && data.value.userVote.Some? then
      Rejected(AlreadyVotedMessage)
    else if data.None? || data.value.poll.None? then
      Rejected(VoteFailedMessage)
    else
      Submitted(VoteInsert(data.value.poll.value.id, user.value.id, EmailOrUnknown(user.value), team))
  }

  /** A click on a team's vote button. The leaderboard always calls `handleVote`; the
      polls page shows signed-out users a button that only raises the sign-up toast. */
  function VoteClick(screen: Screen, user: Option<User>, data: Option<PollData>, team: string): (o: VoteOutcome)
    ensures user.None? ==> o == Rejected(SignUpPrompt)
    ensures user.Some? && data.Some? && data.value.userVote.Some? ==> o == Rejected(AlreadyVotedMessage)
    ensures o.Submitted? <==> user.Some? && data.Some? && data.value.userVote.None? && data.value.poll.Some?
    ensures user.Some? && !(data.Some? && data.value.userVote.Some?) && (data.None? || data.value.poll.None?) ==>
              o == Rejected(VoteFailedMessage)
    ensures o.Submitted? ==>
              o.row == VoteInsert(data.value.poll.value.id, user.value.id, EmailOrUnknown(user.value), team)
  {
    if screen == PollsPage && user.None? then Rejected(SignUpPrompt)
    else HandleVote(screen, user, data, team)
  }

  /** Seen from the user, the two screens react to every click in the same way. */
  lemma ClicksAgree(user: Option<User>, data: Option<PollData>, team: string)
    ensures VoteClick(Leaderboard, user, data, team) == VoteClick(PollsPage, user, data, team)
    ensures user.None? ==> HandleVote(PollsPage, user, data, team) == NoAction
  {
  }

  /** The signed-in user's vote button is disabled while a vote is pending or once
      the user has a vote. */
  function VoteButtonDisabled(pending: bool, data: Option<PollData>): (r: bool)
    ensures data.Some? && data.value.userVote.Some? ==> r
    ensures !pending && (data.None? || data.value.userVote.None?) ==> !r
  {
    pending || (data.Some? && data.value.userVote.Some?)
  }

  /** The vote row the backend stores for an accepted insert. */
  function Stored(row: VoteInsert, id: string, createdAt: string): Vote {
    Vote(id, row.pollId, row.userId, row.email, row.teamName, createdAt)
  }

  /** After an accepted vote and the reload that follows it, the user's vote is the
      new row, the chosen team has one vote more, every other team is unchanged, and
      a second vote from the same user is rejected and its button disabled. */
  lemma AcceptedVoteIsCounted(
    screen: Screen, roster: seq<string>, poll: Poll, votes: seq<Vote>, u: User, team: string,
    id: string, createdAt: string, again: string)
    requires HandleVote(screen, Some(u), Some(Computed(poll, votes, roster, Some(u))), team).Submitted?
    ensures
      var v := Stored(HandleVote(screen, Some(u), Some(Computed(poll, votes, roster, Some(u))), team).row, id, createdAt);
      var after := Computed(poll, votes + [v], roster, Some(u));
      && after.userVote == Some(v)
      && VotesFor(votes + [v], team) == VotesFor(votes, team) + 1
      && (forall t | t != team :: VotesFor(votes + [v], t) == VotesFor(votes, t))
      && after.totalVotes == Computed(poll, votes, roster, Some(u)).totalVotes + (if team in roster then 1 else 0)
      && HandleVote(screen, Some(u), Some(after), again) == Rejected(AlreadyVotedMessage)
      && VoteButtonDisabled(false, Some(after))
  {
    var before := Computed(poll, votes, roster, Some(u));
    var v := Stored(HandleVote(screen, Some(u), Some(before), team).row, id, createdAt);
    FindVoteAppend(votes, v, u.id);
    VoteAddsOne(votes, v);
    VotesInRosterAppend(votes, v, roster);
  }

  lemma {:induction false} VotesInRosterAppend(votes: seq<Vote>, v: Vote, roster: seq<string>)
    ensures VotesInRoster(votes + [v], roster) == VotesInRoster(votes, roster) + (if v.teamName in roster then 1 else 0)
  {
    if votes == [] {
      assert votes + [v] == [v];
    } else {
      assert (votes + [v])[1..] == votes[1..] + [v];
      VotesInRosterAppend(votes[1..], v, roster);
    }
  }
}

=== FILE: post_detail.dfy ===
/** Likes and comments on a post (src/pages/PostDetail.tsx; the post card in
    src/components/PostCard.tsx repeats the same like derivation and toggle). */
module PostInteractions {
  import opened Rows
  import opened JsStrings

  /** `likeData`: how many likes the post has and whether the signed-in user gave one. */
  datatype LikeSummary = LikeSummary(count: nat, userLiked: bool)

  /** `likes.some(like => like.user_id === userId)` */
  function LikedBy(likes: seq<Like>, userId: string): (r: bool)
    ensures r <==> exists i :: 0 <= i < |likes| && likes[i].userId == userId
  {
    if likes == [] then false
    else
      assert forall i :: 0 < i < |likes| ==> likes[1..][i - 1] == likes[i];
      likes[0].userId == userId || LikedBy(likes[1..], userId)
  }

  /** The like summary of the rows fetched for a post: their number, and whether a
      signed-in user owns one of them (never, when nobody is signed in). */
  function Summarize(likes: seq<Like>, user: Option<User>): (r: LikeSummary)
    ensures r.count == |likes|
    ensures r.userLiked <==> user.Some? && exists i :: 0 <= i < |likes| && likes[i].userId == user.value.id
  {
    LikeSummary(|likes|, user.Some? && LikedBy(likes, user.value.id))
  }

  /** What a click on the heart leads to. */
  datatype LikeOutcome =
    | LikeRejected(message: string)
    | DeleteLike(postId: string, userId: string)
    | InsertLike(postId: string, userId: string)

  const SignInToLike: string := "Please sign in to like posts"

  /** `handleLike` followed by the like mutation: signed-out users get a toast; a user
      who already likes the post removes the (post, user) like; anyone else adds one.
      While the summary is not loaded the mutation adds a like. */
  function HandleLike(postId: string, user: Option<User>, summary: Option<LikeSummary>): (o: LikeOutcome)
    ensures user.None? <==> o == LikeRejected(SignInToLike)
    ensures o.DeleteLike? <==> user.Some? && summary.Some? && summary.value.userLiked
    ensures o.InsertLike? <==> user.Some? && !(summary.Some? && summary.value.userLiked)
    ensures o.DeleteLike? || o.InsertLike? ==> o.postId == postId && o.userId == user.value.id
  {
    if user.None? then LikeRejected(SignInToLike)
    else if summary.Some? && summary.value.userLiked then DeleteLike(postId, user.value.id)
    else InsertLike(postId, user.value.id)
  }

  /** The like rows of the pair (post, user). */
  function LikesOfPair(likes: seq<Like>, postId: string, userId: string): nat {
    if likes == [] then 0
    else (if likes[0].postId == postId && likes[0].userId == userId then 1 else 0)
         + LikesOfPair(likes[1..], postId, userId)
  }

  /** The backend's delete of every like row of the pair (post, user). */
  function DeletePair(likes: seq<Like>, postId: string, userId: string): (r: seq<Like>)
    ensures forall l :: l in r <==> l in likes && !(l.postId == postId && l.userId == userId)
    ensures |r| == |likes| - LikesOfPair(likes, postId, userId)
  {
    if likes == [] then []
    else
      var keep := !(likes[0].postId == postId && likes[0].userId == userId);
      (if keep then [likes[0]] else []) + DeletePair(likes[1..], postId, userId)
  }

  /** The like rows after the backend carried out an outcome (`newId` and `now` are the
      id and timestamp the backend gives an inserted row). */
  function ApplyLike(likes: seq<Like>, o: LikeOutcome, newId: string, now: string): seq<Like> {
    match o
    case LikeRejected(_) => likes
    case DeleteLike(p, u) => DeletePair(likes, p, u)
    case InsertLike(p, u) => likes + [Like(newId, p, u, now)]
  }

  /** For a signed-in user, a click on the heart followed by a reload of the post's
      likes flips whether the user likes the post. Adding a like adds one to the
      count; removing takes away the user's like rows on the post (one, when the
      backend keeps one like per user and post). */
  lemma ToggleFlipsLike(postId: string, likes: seq<Like>, u: User, newId: string, now: string)
    requires forall l | l in likes :: l.postId == postId
    ensures var before := Summarize(likes, Some(u));
            var after := Summarize(ApplyLike(likes, HandleLike(postId, Some(u), Some(before)), newId, now), Some(u));
            && after.userLiked == !before.userLiked
            && (!before.userLiked ==> after.count == before.count + 1)
            && (before.userLiked ==> after.count == before.count - LikesOfPair(likes, postId, u.id))
  {
    var before := Summarize(likes, Some(u));
    var rows := ApplyLike(likes, HandleLike(postId, Some(u), Some(before)), newId, now);
    if !before.userLiked {
      assert rows[|likes|].userId == u.id;
    } else {
      forall i | 0 <= i < |rows| ensures rows[i].userId != u.id {
        assert rows[i] in rows;
      }
    }
  }

  /** The row the comment mutation inserts. */
  datatype CommentInsert = CommentInsert(postId: string, userId: string, email: string, content: string)

  /** What submitting the comment form leads to. */
  datatype CommentOutcome = CommentIgnored | CommentRejected(message: string) | CommentSubmitted(row: CommentInsert)

  const SignInToComment: string := "Please sign in to comment"

  /** `handleComment`: a comment that is blank after trimming is ignored; otherwise a
      signed-out user gets a toast; otherwise the trimmed comment is inserted. */
  function HandleComment(postId: string, text: string, user: Option<User>): (o: CommentOutcome)
    ensures o.CommentIgnored? <==> AllSpace(text)
    ensures o.CommentRejected? <==> !AllSpace(text) && user.None?
    ensures o.CommentRejected? ==> o.message == SignInToComment
    ensures o.CommentSubmitted? ==>
              && o.row == CommentInsert(postId, user.value.id, EmailOrUnknown(user.value), Trim(text))
              && o.row.content != [] && Trimmed(o.row.content)
  {
    TrimEmptyIff(text);
    if Trim(text) == [] then CommentIgnored
    else if user.None? then CommentRejected(SignInToComment)
    else CommentSubmitted(CommentInsert(postId, user.value.id, EmailOrUnknown(user.value), Trim(text)))
  }

  /** The send button is disabled when the `submittingComment` flag is set or the text
      is blank. `handleComment` sets the flag and clears it again in the same
      synchronous step, before the insert completes, so the flag is never seen set
      and in practice only blank text disables the button. */
  function CommentButtonDisabled(submitting: bool, text: string): (r: bool)
    ensures r <==> submitting || AllSpace(text)
  {
    TrimEmptyIff(text);
    submitting || Trim(text) == []
  }

  /** The button and the handler agree. The flag is taken as unset, the only value a
      render can see (see `CommentButtonDisabled`): the button is
      disabled exactly when pressing it would be ignored, and for a signed-in user it
      is enabled exactly when pressing it sends the comment. */
  lemma EnabledCommentButtonActs(postId: string, text: string, user: Option<User>)
    ensures CommentButtonDisabled(false, text) <==> HandleComment(postId, text, user).CommentIgnored?
    ensures user.Some? ==> (!CommentButtonDisabled(false, text) <==> HandleComment(postId, text, user).CommentSubmitted?)
  {
    TrimEmptyIff(text);
  }
}

=== FILE: post_edit.dfy ===
/** The post card's edit mode (src/components/PostCard.tsx): the tag list, the media
    marked for removal, the newly picked files, the save rule with the media list it
    writes back and the storage files it deletes, and the card's display rules. */
module PostEditing {
  import opened Rows
  import opened Seqs
  import opened JsStrings

  /** The `editForm` state. */
  datatype EditForm = EditForm(title: string, content: string, tags: seq<string>, tagInput: string)

  /** A file chosen in the browser's file picker. */
  datatype PickedFile = PickedFile(name: string)

  /** Everything the card keeps while its post is edited. */
  datatype EditSession = EditSession(
    isEditing: bool, form: EditForm, mediaToRemove: seq<string>, newFiles: seq<PickedFile>)

  /** The form as it is filled from the post. */
  function FormOf(post: Post): EditForm {
    EditForm(post.title, post.content, post.tags, "")
  }

  /** The card's state when it is first shown. */
  function InitialSession(post: Post): EditSession {
    EditSession(false, FormOf(post), [], [])
  }

  /** `handleEditToggle`: leaving edit mode throws away every unsaved change. */
  function ToggleEdit(post: Post, s: EditSession): (r: EditSession)
    ensures r.isEditing == !s.isEditing
    ensures s.isEditing ==> r.form == FormOf(post) && r.mediaToRemove == [] && r.newFiles == []
    ensures !s.isEditing ==> r.form == s.form && r.mediaToRemove == s.mediaToRemove && r.newFiles == s.newFiles
  {
    if s.isEditing then EditSession(false, FormOf(post), [], [])
    else s.(isEditing := true)
  }

  // ---------------------------------------------------------------------------
  // Tags

  /** `handleAddTag`: the trimmed input is appended, and the input cleared, only when
      it is not empty and not already a tag; otherwise nothing changes. */
  function AddTag(f: EditForm): (r: EditForm)
    ensures r.title == f.title && r.content == f.content
    ensures Trim(f.tagInput) != [] && Trim(f.tagInput) !in f.tags ==>
              r.tags == f.tags + [Trim(f.tagInput)] && r.tagInput == []
    ensures Trim(f.tagInput) == [] || Trim(f.tagInput) in f.tags ==> r == f
  {
    var tag := Trim(f.tagInput);
    if tag != [] && tag !in f.tags then f.(tags := f.tags + [tag], tagInput := "") else f
  }

  /** `handleRemoveTag`: every occurrence of the tag is dropped, the other tags stay. */
  function RemoveTag(f: EditForm, tag: string): (r: EditForm)
    ensures tag !in r.tags
    ensures forall x :: x in r.tags <==> x in f.tags && x != tag
    ensures r.title == f.title && r.content == f.content && r.tagInput == f.tagInput
  {
    f.(tags := RemoveAll(f.tags, tag))
  }

  /** Adding a tag never creates a duplicate: a duplicate-free tag list stays so, and
      every added tag is non-empty and trimmed. */
  lemma AddTagKeepsTagsDistinct(f: EditForm)
    requires NoDup(f.tags)
    ensures NoDup(AddTag(f).tags)
    ensures forall t | t in AddTag(f).tags && t !in f.tags :: t != [] && Trimmed(t)
  {
    var tag := Trim(f.tagInput);
    if tag != [] && tag !in f.tags {
      AppendFreshNoDup(f.tags, tag);
    }
  }

  /** Removing the tag just added gives the tags back as they were. */
  lemma AddThenRemoveTag(f: EditForm)
    requires Trim(f.tagInput) != [] && Trim(f.tagInput) !in f.tags
    ensures RemoveTag(AddTag(f), Trim(f.tagInput)).tags == f.tags
  {
    var tag := Trim(f.tagInput);
    RemoveAllAppend(f.tags, [tag], tag);
    RemoveAllAbsent(f.tags, tag);
    assert RemoveAll([tag], tag) == [];
  }

  /** On a duplicate-free tag list, removing the tag at position `i` deletes exactly
      that position; the other tags keep their order. */
  lemma RemoveTagAt(f: EditForm, i: int)
    requires NoDup(f.tags) && 0 <= i < |f.tags|
    ensures RemoveTag(f, f.tags[i]).tags == f.tags[..i] + f.tags[i + 1..]
  {
    RemoveAllAt(f.tags, i);
  }

  // ---------------------------------------------------------------------------
  // New files and existing media

  /** `handleFileSelect`: the picked files are appended to the pending ones. */
  function SelectFiles(files: seq<PickedFile>, picked: seq<PickedFile>): (r: seq<PickedFile>)
    ensures |r| == |files| + |picked| && r[..|files|] == files && r[|files|..] == picked
  {
    files + picked
  }

  /** `handleRemoveNewFile`: the pending file at `index` is dropped; the others keep
      their order; an index outside the list changes nothing. */
  function RemoveNewFile(files: seq<PickedFile>, index: int): (r: seq<PickedFile>)
    ensures 0 <= index < |files| ==> |r| == |files| - 1 && r == files[..index] + files[index + 1..]
    ensures !(0 <= index < |files|) ==> r == files
  {
    DropIndex(files, index)
  }

  /** `handleRemoveExistingMedia`: the URL is appended to the removal list. */
  function MarkForRemoval(marked: seq<string>, url: string): (r: seq<string>)
    ensures |r| == |marked| + 1 && r[..|marked|] == marked && r[|marked|] == url
    ensures url in r
  {
    marked + [url]
  }

  /** `handleRestoreMedia`: every occurrence of the URL leaves the removal list. */
  function RestoreMedia(marked: seq<string>, url: string): (r: seq<string>)
    ensures url !in r
    ensures forall u :: u in r <==> u in marked && u != url
  {
    RemoveAll(marked, url)
  }

  /** Marking a URL and restoring it leaves the removal list as it was. */
  lemma MarkThenRestore(marked: seq<string>, url: string)
    requires url !in marked
    ensures RestoreMedia(MarkForRemoval(marked, url), url) == marked
  {
    RemoveAllAppend(marked, [url], url);
    RemoveAllAbsent(marked, url);
    assert RemoveAll([url], url) == [];
  }

  // ---------------------------------------------------------------------------
  // Saving

  /** `existing.filter(url => !marked.includes(url))`. */
  function KeepUnmarked(existing: seq<string>, marked: seq<string>): (r: seq<string>)
    ensures forall u :: u in r <==> u in existing && u !in marked
    ensures |r| <= |existing|
  {
    if existing == [] then []
    else (if existing[0] in marked then [] else [existing[0]]) + KeepUnmarked(existing[1..], marked)
  }

  /** The kept URLs of a concatenation are the kept URLs of each part, in order; with
      the membership clause of KeepUnmarked this says the kept URLs are the unmarked
      ones in their original order. */
  lemma {:induction false} KeepUnmarkedAppend(a: seq<string>, b: seq<string>, marked: seq<string>)
    ensures KeepUnmarked(a + b, marked) == KeepUnmarked(a, marked) + KeepUnmarked(b, marked)
  {
    if a == [] {
      assert a + b == b;
    } else {
      assert (a + b)[1..] == a[1..] + b;
      KeepUnmarkedAppend(a[1..], b, marked);
    }
  }

  /** With nothing of the post's media marked, every existing URL is kept, in order. */
  lemma {:induction false} KeepAllUnmarked(existing: seq<string>, marked: seq<string>)
    requires forall u | u in existing :: u !in marked
    ensures KeepUnmarked(existing, marked) == existing
  {
    if existing != [] {
      KeepAllUnmarked(existing[1..], marked);
      assert [existing[0]] + existing[1..] == existing;
    }
  }

  /** The media list a save writes: the post's URLs not marked for removal, in their
      order, followed by the URLs of the newly uploaded files. */
  function FinalMediaUrls(existing: seq<string>, marked: seq<string>, uploaded: seq<string>): (r: seq<string>)
    ensures |uploaded| <= |r| <= |existing| + |uploaded|
    ensures r[|r| - |uploaded|..] == uploaded
    ensures forall i :: 0 <= i < |r| - |uploaded| ==> r[i] in existing && r[i] !in marked
    ensures forall u | u in existing && u !in marked :: u in r[..|r| - |uploaded|]
    ensures r[..|r| - |uploaded|] == KeepUnmarked(existing, marked)
  {
    var kept := KeepUnmarked(existing, marked);
    assert (kept + uploaded)[..|kept|] == kept;
    kept + uploaded
  }

  /** Marking one of the post's media drops exactly that URL from the saved list: the
      other URLs keep their order and the uploads follow them. */
  lemma FinalMediaDropsMarked(existing: seq<string>, marked: seq<string>, uploaded: seq<string>, i: int)
    requires 0 <= i < |existing| && existing[i] in marked
    requires forall j :: 0 <= j < |existing| && j != i ==> existing[j] !in marked
    ensures FinalMediaUrls(existing, marked, uploaded) == existing[..i] + existing[i + 1..] + uploaded
  {
    var pre, post := existing[..i], existing[i + 1..];
    assert forall u | u in pre :: u !in marked by {
      forall u | u in pre ensures u !in marked {
        var j :| 0 <= j < |pre| && pre[j] == u;
        assert existing[j] == u;
      }
    }
    assert forall u | u in post :: u !in marked by {
      forall u | u in post ensures u !in marked {
        var j :| 0 <= j < |post| && post[j] == u;
        assert existing[i + 1 + j] == u;
      }
    }
    KeepUnmarkedDropsOne(pre, existing[i], post, marked);
    assert existing == pre + [existing[i]] + post;
  }

  lemma KeepUnmarkedDropsOne(pre: seq<string>, u: string, post: seq<string>, marked: seq<string>)
    requires u in marked
    requires forall x | x in pre :: x !in marked
    requires forall x | x in post :: x !in marked
    ensures KeepUnmarked(pre + [u] + post, marked) == pre + post
  {
    calc {
      KeepUnmarked(pre + [u] + post, marked);
    == { KeepUnmarkedAppend(pre + [u], post, marked); }
      KeepUnmarked(pre + [u], marked) + KeepUnmarked(post, marked);
    == { KeepUnmarkedAppend(pre, [u], marked); }
      KeepUnmarked(pre, marked) + KeepUnmarked([u], marked) + KeepUnmarked(post, marked);
    == { KeepUnmarkedOne(u, marked); }
      KeepUnmarked(pre, marked) + KeepUnmarked(post, marked);
    == { KeepAllUnmarked(pre, marked); KeepAllUnmarked(post, marked); }
      pre + post;
    }
  }

  lemma KeepUnmarkedOne(u: string, marked: seq<string>)
    requires u in marked
    ensures KeepUnmarked([u], marked) == []
  {
    assert [u][1..] == [];
  }

  /** `marked.map(url => url.split('/').pop()).filter(Boolean)`: the last path
      segment of every marked URL, empty segments dropped. The contract states which
      names are deleted, not their order or how often each is listed: the storage
      removal treats its list as a set of paths. */
  function FilesToDelete(marked: seq<string>): (r: seq<string>)
    ensures |r| <= |marked|
    ensures forall f | f in r :: f != [] && '/' !in f
    ensures forall f | f in r :: exists u | u in marked :: AfterLast(u, '/') == f
    ensures forall u | u in marked && AfterLast(u, '/') != [] :: AfterLast(u, '/') in r
  {
    if marked == [] then []
    else
      var name := AfterLast(marked[0], '/');
      var rest := FilesToDelete(marked[1..]);
      var r := (if name != [] then [name] else []) + rest;
      assert forall f | f in r :: exists u | u in marked :: AfterLast(u, '/') == f by {
        forall f | f in r ensures exists u | u in marked :: AfterLast(u, '/') == f {
          if f in rest {
            var u :| u in marked[1..] && AfterLast(u, '/') == f;
            assert u in marked;
          } else {
            assert AfterLast(marked[0], '/') == f;
          }
        }
      }
      r
  }

  /** A public storage URL is the bucket address, a slash, and the stored file name;
      the name derived for deletion is exactly that file name. */
  lemma DeletesTheStoredFile(bucket: string, fileName: string)
    requires fileName != [] && '/' !in fileName
    ensures FilesToDelete([bucket + "/" + fileName]) == [fileName]
  {
    AfterLastOfJoin(bucket, '/', fileName);
    assert bucket + "/" + fileName == bucket + ['/'] + fileName;
  }

  /** The columns a save writes to the post row. */
  datatype PostUpdate = PostUpdate(
    title: string, content: string, tags: seq<string>, mediaUrls: seq<string>, updatedAt: string)

  /** What pressing Save leads to: the required-fields toast, or an update of the post,
      the storage files to delete, and the card's state afterwards. */
  datatype SaveResult =
    | SaveRejected(message: string)
    | Saved(update: PostUpdate, filesToDelete: seq<string>, after: EditSession)

  const RequiredMessage: string := "Title and content are required"

  /** `handleSaveEdit`. `uploaded` stands for the public URLs the upload of the
      pending files returned, one per file in order; `now` for the save's timestamp.
      A title or content that is blank after trimming rejects the save. */
  function SaveEdit(post: Post, s: EditSession, uploaded: seq<string>, now: string): (r: SaveResult)
    ensures r.SaveRejected? <==> AllSpace(s.form.title) || AllSpace(s.form.content)
    ensures r.SaveRejected? ==> r.message == RequiredMessage
    ensures r.Saved? ==> && r.update.title == Trim(s.form.title) && r.update.content == Trim(s.form.content)
                         && r.update.title != [] && Trimmed(r.update.title)
                         && r.update.content != [] && Trimmed(r.update.content)
                         && r.update.tags == s.form.tags && r.update.updatedAt == now
    ensures r.Saved? ==>
              r.update.mediaUrls == FinalMediaUrls(post.mediaUrls, s.mediaToRemove, if |s.newFiles| > 0 then uploaded else [])
    ensures r.Saved? ==> r.filesToDelete == FilesToDelete(s.mediaToRemove)
    ensures r.Saved? ==> && !r.after.isEditing && r.after.mediaToRemove == [] && r.after.newFiles == []
                         && r.after.form == s.form
  {
    TrimEmptyIff(s.form.title);
    TrimEmptyIff(s.form.content);
    if Trim(s.form.title) == [] || Trim(s.form.content) == [] then
      SaveRejected(RequiredMessage)
    else
      var newUrls := if |s.newFiles| > 0 then uploaded else [];
      var update := PostUpdate(Trim(s.form.title), Trim(s.form.content), s.form.tags,
                               FinalMediaUrls(post.mediaUrls, s.mediaToRemove, newUrls), now);
      Saved(update, FilesToDelete(s.mediaToRemove), s.(isEditing := false, mediaToRemove := [], newFiles := []))
  }

  /** The post row after the update is written. */
  function ApplyUpdate(post: Post, u: PostUpdate): Post {
    post.(title := u.title, content := u.content, tags := u.tags, mediaUrls := u.mediaUrls, updatedAt := u.updatedAt)
  }

  /** `isEdited`: the post was changed after it was created. */
  function IsEdited(post: Post): bool {
    post.updatedAt != post.createdAt
  }

  /** A saved post shows the "edited" mark exactly when the save time differs from its
      creation time. The card that saved keeps the form as typed; opening its editor
      again and saving with no change is accepted and writes the post's title,
      content, tags and media unchanged. */
  lemma SavedPostIsEditedAndValid(post: Post, s: EditSession, uploaded: seq<string>, now: string, later: string)
    requires !AllSpace(s.form.title) && !AllSpace(s.form.content)
    ensures var r := SaveEdit(post, s, uploaded, now);
            var p := ApplyUpdate(post, r.update);
            var again := SaveEdit(p, ToggleEdit(p, r.after), [], later);
            && (IsEdited(p) <==> now != post.createdAt)
            && again.Saved?
            && again.update.title == p.title && again.update.content == p.content
            && again.update.tags == p.tags && again.update.mediaUrls == p.mediaUrls
  {
    var r := SaveEdit(post, s, uploaded, now);
    var p := ApplyUpdate(post, r.update);
    KeepAllUnmarked(p.mediaUrls, []);
  }

  /** The "edited" mark depends only on the two timestamps: an update shows it exactly
      when it is written at a time other than the post's creation time. */
  lemma EditedMarkAfterUpdate(post: Post, u: PostUpdate)
    ensures IsEdited(ApplyUpdate(post, u)) <==> u.updatedAt != post.createdAt
    ensures ApplyUpdate(post, u).createdAt == post.createdAt
  {
  }

  /** Cancelling an edit restores the post's own form and media: saving right after
      re-entering edit mode writes the post's media list unchanged. */
  lemma CancelRestoresPost(post: Post, s: EditSession)
    requires s.isEditing
    ensures var r := ToggleEdit(post, ToggleEdit(post, s));
            && r.isEditing && r.form == FormOf(post)
            && FinalMediaUrls(post.mediaUrls, r.mediaToRemove, []) == post.mediaUrls
  {
    KeepAllUnmarked(post.mediaUrls, []);
  }

  /** Opening the editor on a freshly shown card starts from the post itself, nothing
      marked and nothing pending, which is the very state cancelling and re-entering
      gives; saving at once keeps the post's media. */
  lemma FirstEditStartsFromPost(post: Post, s: EditSession)
    requires s.isEditing
    ensures var r := ToggleEdit(post, InitialSession(post));
            && r.isEditing && r.form == FormOf(post) && r.mediaToRemove == [] && r.newFiles == []
            && r == ToggleEdit(post, ToggleEdit(post, s))
            && FinalMediaUrls(post.mediaUrls, r.mediaToRemove, []) == post.mediaUrls
  {
    KeepAllUnmarked(post.mediaUrls, []);
  }

  // ---------------------------------------------------------------------------
  // Display

  /** The media shown on the card: all of them while editing, otherwise the first four. */
  function PreviewUrls(urls: seq<string>, isEditing: bool): (r: seq<string>)
    ensures |r| <= |urls| && r == urls[..|r|]
    ensures isEditing ==> r == urls
    ensures !isEditing ==> |r| == if |urls| <= 4 then |urls| else 4
  {
    if isEditing || |urls| <= 4 then urls else urls[..4]
  }

  /** The "+n more" tile: how many media the card does not show (0 means no tile). */
  function HiddenCount(urls: seq<string>, isEditing: bool): (n: nat)
    ensures n > 0 <==> !isEditing && |urls| > 4
    ensures n == |urls| - |PreviewUrls(urls, isEditing)|
  {
    if !isEditing && |urls| > 4 then |urls| - 4 else 0
  }

  /** The card shows a prefix of at most four media outside edit mode, and the shown
      media plus the "+n more" count account for every medium exactly once. */
  lemma PreviewAccountsForAll(urls: seq<string>, isEditing: bool)
    ensures PreviewUrls(urls, isEditing) == urls[..|PreviewUrls(urls, isEditing)|]
    ensures !isEditing ==> |PreviewUrls(urls, isEditing)| <= 4
    ensures |PreviewUrls(urls, isEditing)| + HiddenCount(urls, isEditing) == |urls|
    ensures isEditing ==> PreviewUrls(urls, isEditing) == urls
  {
  }

  /** The substrings that make a media URL count as a video. */
  const VideoMarkers: seq<string> := [".mp4", ".mov", ".avi"]

  /** `url.includes('.mp4') || url.includes('.mov') || url.includes('.avi')`: a URL is
      shown as a video when one of the markers occurs anywhere in it. */
  function IsVideo(url: string): (r: bool)
    ensures r <==> exists m, i | m in VideoMarkers :: OccursAt(url, m, i)
  {
    Includes(url, ".mp4") || Includes(url, ".mov") || Includes(url, ".avi")
  }

  /** The test looks for a marker anywhere, not only at the end: a URL with a marker
      followed by anything else still counts as a video. */
  lemma MarkerAnywhereIsVideo(prefix: string, m: string, suffix: string)
    requires m in VideoMarkers
    ensures IsVideo(prefix + m + suffix)
  {
    assert OccursAt(prefix + m + suffix, m, |prefix|) by {
      assert (prefix + m + suffix)[|prefix|..|prefix| + |m|] == m;
    }
  }
}

=== FILE: profile.dfy ===
/** The profile page (src/pages/ProfilePage.tsx): which fetched user row a route
    username denotes, the handle shown for it, and the likes its posts received. */
module Profile {
  import opened Rows
  import opened Seqs
  import opened JsStrings

  /** A row of the `users` table joined with the account's e-mail. */
  datatype ProfileRow = ProfileRow(id: string, name: string, email: string, bio: Option<string>)

  /** `email.split('@')[0]`: the handle shown as "@handle", the e-mail up to its first `@`. */
  function Handle(email: string): (r: string)
    ensures '@' !in r && |r| <= |email| && r == email[..|r|]
    ensures '@' in email ==> |r| < |email| && email[|r|] == '@'
    ensures '@' !in email ==> r == email
  {
    var r := BeforeFirst(email, '@');
    assert |r| == |email| ==> r == email;
    r
  }

  /** The handle of an address "name@domain" with no `@` in the name is the name. */
  lemma HandleOfAddress(name: string, domain: string)
    requires '@' !in name
    ensures Handle(name + "@" + domain) == name
  {
    assert name + "@" + domain == name + ['@'] + domain;
    BeforeFirstOfJoin(name, '@', domain);
  }

  /** `users.find(u => handle(u) === username)` */
  function FindExact(rows: seq<ProfileRow>, username: string): (r: Option<ProfileRow>)
    ensures r.None? <==> forall i :: 0 <= i < |rows| ==> Handle(rows[i].email) != username
    ensures r.Some? ==> exists i :: 0 <= i < |rows| && rows[i] == r.value && Handle(r.value.email) == username
                                    && forall j :: 0 <= j < i ==> Handle(rows[j].email) != username
  {
    if rows == [] then None
    else if Handle(rows[0].email) == username then Some(rows[0])
    else
      var r := FindExact(rows[1..], username);
      assert forall i :: 0 < i < |rows| ==> rows[1..][i - 1] == rows[i];
      r
  }

  /** `users.find(...) || users[0]`: the first row whose handle is exactly the route
      username; failing that, the first row; with no rows, nothing ("User not found"). */
  function SelectProfile(rows: seq<ProfileRow>, username: string): (r: Option<ProfileRow>)
    ensures r.None? <==> rows == []
    ensures r.Some? ==> r.value in rows
    ensures FindExact(rows, username).Some? ==> r == FindExact(rows, username)
    ensures rows != [] && (forall i :: 0 <= i < |rows| ==> Handle(rows[i].email) != username) ==> r == Some(rows[0])
  {
    match FindExact(rows, username)
    case Some(u) => Some(u)
    case None => if rows == [] then None else Some(rows[0])
  }

  /** The like rows whose post is one of `postIds`
      (`likes` filtered by `.in('post_id', postIds)`). */
  function LikesOn(likes: seq<Like>, postIds: seq<string>): (n: nat)
    ensures n <= |likes|
    ensures n == |likes| <==> forall i :: 0 <= i < |likes| ==> likes[i].postId in postIds
  {
    if likes == [] then 0
    else (if likes[0].postId in postIds then 1 else 0) + LikesOn(likes[1..], postIds)
  }

  /** The likes of one post. */
  function LikesOfPost(likes: seq<Like>, postId: string): nat {
    if likes == [] then 0
    else (if likes[0].postId == postId then 1 else 0) + LikesOfPost(likes[1..], postId)
  }

  /** "likes received": 0 when the profile has no e-mail or no posts, otherwise the
      number of like rows on the profile's posts. */
  function LikesReceived(email: string, postIds: seq<string>, likes: seq<Like>): (n: nat)
    ensures email == [] || postIds == [] ==> n == 0
    ensures n <= |likes|
  {
    if email == [] then 0
    else if |postIds| == 0 then 0
    else LikesOn(likes, postIds)
  }

  /** The sum of the per-post like counts over a list of posts. */
  function SumLikesPerPost(postIds: seq<string>, likes: seq<Like>): nat {
    if postIds == [] then 0 else LikesOfPost(likes, postIds[0]) + SumLikesPerPost(postIds[1..], likes)
  }

  lemma {:induction false} LikesOnCons(likes: seq<Like>, p: string, rest: seq<string>)
    requires p !in rest
    ensures LikesOn(likes, [p] + rest) == LikesOfPost(likes, p) + LikesOn(likes, rest)
  {
    if likes != [] {
      LikesOnCons(likes[1..], p, rest);
    }
  }

  lemma {:induction false} LikesOnNone(likes: seq<Like>)
    ensures LikesOn(likes, []) == 0
  {
    if likes != [] {
      LikesOnNone(likes[1..]);
    }
  }

  lemma {:induction false} LikesOnIsSum(postIds: seq<string>, likes: seq<Like>)
    requires NoDup(postIds)
    ensures LikesOn(likes, postIds) == SumLikesPerPost(postIds, likes)
  {
    if postIds == [] {
      LikesOnNone(likes);
    } else {
      assert NoDup(postIds[1..]);
      LikesOnIsSum(postIds[1..], likes);
      assert postIds[0] !in postIds[1..];
      LikesOnCons(likes, postIds[0], postIds[1..]);
      assert [postIds[0]] + postIds[1..] == postIds;
    }
  }

  /** Likes received are the likes of each of the profile's posts added up: the
      number the profile shows is the sum of the like counts its posts show. */
  lemma LikesReceivedIsSumOverPosts(email: string, postIds: seq<string>, likes: seq<Like>)
    requires email != [] && NoDup(postIds)
    ensures LikesReceived(email, postIds, likes) == SumLikesPerPost(postIds, likes)
  {
    if postIds != [] {
      LikesOnIsSum(postIds, likes);
    }
  }
}

=== FILE: rows.dfy ===
/** Row shapes of the hosted backend's tables (posts, likes, polls, votes) and of the
    signed-in user, as the front-end reads them. Every field the model never inspects
    is still kept so that the records read like the tables they stand for. */
module Rows {

  /** Absent or present; stands for JavaScript's `null`/`undefined` versus a value. */
  datatype Option<+T> = None | Some(value: T)

  /** The signed-in user as the authentication context exposes it; `email` may be missing. */
  datatype User = User(id: string, email: Option<string>)

  /** A row of the `votes` table. */
  datatype Vote = Vote(id: string, pollId: string, userId: string, email: string, teamName: string, createdAt: string)

  /** A row of the `polls` table. */
  datatype Poll = Poll(id: string, title: string, description: string, teams: seq<string>, createdAt: string, isActive: bool)

  /** A row of the `posts` table. */
  datatype Post = Post(
    id: string, title: string, content: string, tags: seq<string>, mediaUrls: seq<string>,
    userId: string, email: string, createdAt: string, updatedAt: string)

  /** A row of the `likes` table. */
  datatype Like = Like(id: string, postId: string, userId: string, createdAt: string)

  const Unknown: string := "Unknown"

  /** `user.email || 'Unknown'`: a missing or empty e-mail is written as "Unknown". */
  function EmailOrUnknown(u: User): (r: string)
    ensures r != []
    ensures u.email.Some? && u.email.value != [] ==> r == u.email.value
    ensures (u.email.None? || u.email.value == []) ==> r == Unknown
  {
    match u.email
    case Some(e) => if e != [] then e else Unknown
    case None => Unknown
  }
}

=== FILE: seqs.dfy ===
/** Sequence operations shared by the list edits and the tally: the JavaScript
    `filter` shapes the front-end uses, stated once. */
module Seqs {

  /** No element occurs twice. */
  predicate NoDup<T(==)>(s: seq<T>) {
    forall i, j :: 0 <= i < j < |s| ==> s[i] != s[j]
  }

  /** `s.filter(x => x !== v)`: every occurrence of `v` dropped, the rest kept in order. */
  function RemoveAll<T(==,!new)>(s: seq<T>, v: T): (r: seq<T>)
    ensures v !in r
    ensures forall x :: x in r <==> x in s && x != v
    ensures |r| <= |s|
  {
    if s == [] then [] else (if s[0] == v then [] else [s[0]]) + RemoveAll(s[1..], v)
  }

  /** Removing a value that is absent changes nothing. */
  lemma {:induction false} RemoveAllAbsent<T(!new)>(s: seq<T>, v: T)
    requires v !in s
    ensures RemoveAll(s, v) == s
  {
    if s != [] {
      RemoveAllAbsent(s[1..], v);
      assert [s[0]] + s[1..] == s;
    }
  }

  /** Removal distributes over concatenation. */
  lemma {:induction false} RemoveAllAppend<T(!new)>(a: seq<T>, b: seq<T>, v: T)
    ensures RemoveAll(a + b, v) == RemoveAll(a, v) + RemoveAll(b, v)
  {
    if a == [] {
      assert a + b == b;
    } else {
      assert (a + b)[1..] == a[1..] + b;
      RemoveAllAppend(a[1..], b, v);
    }
  }

  /** In a duplicate-free list, removing the value at position `i` deletes exactly
      that position: the other elements stay, in order. */
  lemma RemoveAllAt<T(!new)>(s: seq<T>, i: int)
    requires NoDup(s) && 0 <= i < |s|
    ensures RemoveAll(s, s[i]) == s[..i] + s[i + 1..]
  {
    var v, pre, post := s[i], s[..i], s[i + 1..];
    assert v !in pre by {
      forall k | 0 <= k < |pre| ensures pre[k] != v { assert pre[k] == s[k]; }
    }
    assert v !in post by {
      forall k | 0 <= k < |post| ensures post[k] != v { assert post[k] == s[i + 1 + k]; }
    }
    SplitAt(s, i);
    RemoveAllOnly(pre, v, post);
  }

  lemma RemoveAllOnly<T(!new)>(pre: seq<T>, v: T, post: seq<T>)
    requires v !in pre && v !in post
    ensures RemoveAll(pre + ([v] + post), v) == pre + post
  {
    calc {
      RemoveAll(pre + ([v] + post), v);
    == { RemoveAllAppend(pre, [v] + post, v); }
      RemoveAll(pre, v) + RemoveAll([v] + post, v);
    == { RemoveAllAbsent(pre, v); }
      pre + RemoveAll([v] + post, v);
    == { RemoveAllHead(v, post); }
      pre + RemoveAll(post, v);
    == { RemoveAllAbsent(post, v); }
      pre + post;
    }
  }

  lemma RemoveAllHead<T(!new)>(v: T, post: seq<T>)
    ensures RemoveAll([v] + post, v) == RemoveAll(post, v)
  {
    assert ([v] + post)[1..] == post;
  }

  lemma SplitAt<T>(s: seq<T>, i: int)
    requires 0 <= i < |s|
    ensures s == s[..i] + ([s[i]] + s[i + 1..])
  {
  }

  /** Appending an element that is not yet in a duplicate-free list keeps it so. */
  lemma AppendFreshNoDup<T>(s: seq<T>, x: T)
    requires NoDup(s) && x !in s
    ensures NoDup(s + [x])
  {
    var ts := s + [x];
    forall i, j | 0 <= i < j < |ts| ensures ts[i] != ts[j] {
      assert ts[i] == s[i];
      if j == |s| {
        assert ts[i] in s;
      } else {
        assert ts[j] == s[j];
      }
    }
  }

  /** Removal keeps a duplicate-free list duplicate-free. */
  lemma {:induction false} RemoveAllNoDup<T(!new)>(s: seq<T>, v: T)
    requires NoDup(s)
    ensures NoDup(RemoveAll(s, v))
  {
    if s != [] {
      assert NoDup(s[1..]);
      RemoveAllNoDup(s[1..], v);
      assert s[0] !in s[1..];
    }
  }

  /** `s.filter((_, index) => index !== i)`: the element at index `i` dropped when
      there is one, otherwise `s` unchanged. */
  function DropIndex<T>(s: seq<T>, i: int): (r: seq<T>)
    ensures 0 <= i < |s| ==> r == s[..i] + s[i + 1..]
    ensures !(0 <= i < |s|) ==> r == s
  {
    if s == [] then []
    else
      var rest := DropIndex(s[1..], i - 1);
      assert 0 < i < |s| ==> s[1..][..i - 1] + s[1..][i..] == s[1..i] + s[i + 1..];
      assert [s[0]] + s[1..] == s;
      (if i == 0 then [] else [s[0]]) + rest
  }

  /** The distinct elements of `s` in order of first occurrence: the keys, in
      insertion order, of a record assigned once per element of `s`. */
  function Dedup<T(==,!new)>(s: seq<T>): (r: seq<T>)
    ensures NoDup(r)
    ensures forall x :: x in r <==> x in s
  {
    if s == [] then []
    else
      var d := Dedup(s[..|s| - 1]);
      assert s == s[..|s| - 1] + [s[|s| - 1]];
      if s[|s| - 1] in d then d else d + [s[|s| - 1]]
  }

  /** A duplicate-free list is its own set of distinct elements. */
  lemma {:induction false} DedupNoDup<T(!new)>(s: seq<T>)
    requires NoDup(s)
    ensures Dedup(s) == s
  {
    if s != [] {
      var init := s[..|s| - 1];
      assert NoDup(init);
      DedupNoDup(init);
      assert s[|s| - 1] !in init;
      assert init + [s[|s| - 1]] == s;
    }
  }
}

=== FILE: strings.dfy ===
/** The few ECMAScript string operations the front-end relies on, over `seq<char>`. */
module JsStrings {

  /** The code points `String.prototype.trim` removes: ECMAScript's WhiteSpace
      (tab, vertical tab, form feed, space, no-break space, byte order mark and the
      Unicode space separators) and LineTerminator (LF, CR, LS, PS) sets. */
  predicate IsSpace(c: char) {
    || c == '\t' || c == '\n' || c == '\U{B}' || c == '\U{C}' || c == '\r' || c == ' '
    || c == '\U{A0}' || c == '\U{1680}' || ('\U{2000}' <= c <= '\U{200A}')
    || c == '\U{2028}' || c == '\U{2029}' || c == '\U{202F}' || c == '\U{205F}'
    || c == '\U{3000}' || c == '\U{FEFF}'
  }

  predicate AllSpace(s: string) {
    forall i :: 0 <= i < |s| ==> IsSpace(s[i])
  }

  /** Neither end of `s` is white space. */
  predicate Trimmed(s: string) {
    s == [] || (!IsSpace(s[0]) && !IsSpace(s[|s| - 1]))
  }

  function TrimStart(s: string): (r: string)
    ensures |r| <= |s| && r == s[|s| - |r|..]
    ensures AllSpace(s[..|s| - |r|])
    ensures r == [] || !IsSpace(r[0])
  {
    if s != [] && IsSpace(s[0]) then TrimStart(s[1..]) else s
  }

  function TrimEnd(s: string): (r: string)
    ensures |r| <= |s| && r == s[..|r|]
    ensures AllSpace(s[|r|..])
    ensures r == [] || !IsSpace(r[|r| - 1])
  {
    if s != [] && IsSpace(s[|s| - 1]) then TrimEnd(s[..|s| - 1]) else s
  }

  /** `r` is the slice of `s` starting at `lo`, and all of `s` around it is white space. */
  predicate CutFrom(s: string, r: string, lo: int) {
    0 <= lo <= |s| - |r| && r == s[lo..lo + |r|] && AllSpace(s[..lo]) && AllSpace(s[lo + |r|..])
  }

  /** `s.trim()`: `s` with the white space at both ends removed. The result is the
      slice `s[lo..lo + |r|]`, everything cut away is white space, and what is left
      neither starts nor ends with white space. */
  function Trim(s: string): (r: string)
    ensures Trimmed(r)
    ensures exists lo :: CutFrom(s, r, lo)
  {
    var r := TrimEnd(TrimStart(s));
    TrimCuts(s);
    r
  }

  lemma TrimCuts(s: string)
    ensures CutFrom(s, TrimEnd(TrimStart(s)), |s| - |TrimStart(s)|)
  {
    TrimIsSlice(s);
    TrimCutsSpace(s);
  }

  lemma TrimIsSlice(s: string)
    ensures var t := TrimStart(s); var r := TrimEnd(t);
            r == s[|s| - |t|..|s| - |t| + |r|]
  {
    var t := TrimStart(s);
    var r := TrimEnd(t);
    assert t == s[|s| - |t|..] && r == t[..|r|];
  }

  lemma TrimCutsSpace(s: string)
    ensures var t := TrimStart(s); var r := TrimEnd(t);
            AllSpace(s[|s| - |t| + |r|..])
  {
    var t := TrimStart(s);
    var r := TrimEnd(t);
    assert s[|s| - |t| + |r|..] == t[|r|..];
  }

  /** A trimmed string is empty exactly when the input was all white space: this is
      the truthiness test `!s.trim()` the forms use. */
  lemma TrimEmptyIff(s: string)
    ensures Trim(s) == [] <==> AllSpace(s)
  {
    var t := TrimStart(s);
    if t != [] {
      assert TrimEnd(t) != [] by {
        if TrimEnd(t) == [] { assert false; }
      }
      assert s[|s| - |t|] == t[0];
    } else {
      assert s[..|s|] == s;
    }
  }

  /** Trimming is idempotent: a string that was trimmed once is left alone. */
  lemma TrimTrimmed(s: string)
    requires Trimmed(s)
    ensures Trim(s) == s
  {
    assert TrimStart(s) == s;
  }

  /** `s` contains `pat` starting at position `i`. */
  predicate OccursAt(s: string, pat: string, i: int) {
    0 <= i && i + |pat| <= |s| && s[i..i + |pat|] == pat
  }

  /** `s.includes(pat)`: `pat` occurs somewhere in `s`. */
  function Includes(s: string, pat: string): (r: bool)
    ensures r <==> exists i :: OccursAt(s, pat, i)
  {
    if |pat| <= |s| && s[..|pat|] == pat then
      assert OccursAt(s, pat, 0);
      true
    else if s == [] then
      false
    else
      forall j | 0 <= j ensures OccursAt(s[1..], pat, j) <==> OccursAt(s, pat, j + 1) {
        if j + 1 + |pat| <= |s| {
          assert s[1..][j..j + |pat|] == s[j + 1..j + 1 + |pat|];
        }
      }
      forall i | OccursAt(s, pat, i) ensures OccursAt(s[1..], pat, i - 1) {
        assert i != 0;
        assert s[1..][i - 1..i - 1 + |pat|] == s[i..i + |pat|];
      }
      Includes(s[1..], pat)
  }

  /** `s.split(c)[0]`: the part of `s` before its first `c`, or all of `s` when `c`
      does not occur. The three clauses determine the result. */
  function BeforeFirst(s: string, c: char): (r: string)
    ensures c !in r
    ensures |r| <= |s| && r == s[..|r|]
    ensures |r| < |s| ==> s[|r|] == c
  {
    if s == [] || s[0] == c then [] else [s[0]] + BeforeFirst(s[1..], c)
  }

  /** `s.split(c).pop()`: the part of `s` after its last `c`, or all of `s` when `c`
      does not occur (empty when `s` ends with `c`). The three clauses determine it. */
  function AfterLast(s: string, c: char): (r: string)
    ensures c !in r
    ensures |r| <= |s| && r == s[|s| - |r|..]
    ensures |r| < |s| ==> s[|s| - |r| - 1] == c
  {
    if s == [] || s[|s| - 1] == c then [] else AfterLast(s[..|s| - 1], c) + [s[|s| - 1]]
  }

  /** Joining a prefix, `c`, and a piece free of `c`, then taking what follows the last
      `c`, gives the piece back. */
  lemma {:induction false} AfterLastOfJoin(prefix: string, c: char, piece: string)
    requires c !in piece
    ensures AfterLast(prefix + [c] + piece, c) == piece
  {
    var s := prefix + [c] + piece;
    if piece != [] {
      var init := piece[..|piece| - 1];
      assert s[..|s| - 1] == prefix + [c] + init;
      assert s[|s| - 1] == piece[|piece| - 1];
      AfterLastOfJoin(prefix, c, init);
      assert init + [piece[|piece| - 1]] == piece;
    }
  }

  /** Likewise for the first `c`: what precedes it is recovered. */
  lemma {:induction false} BeforeFirstOfJoin(piece: string, c: char, rest: string)
    requires c !in piece
    ensures BeforeFirst(piece + [c] + rest, c) == piece
  {
    var s := piece + [c] + rest;
    if piece != [] {
      assert s[1..] == piece[1..] + [c] + rest;
      assert s[0] == piece[0];
      BeforeFirstOfJoin(piece[1..], c, rest);
      assert [piece[0]] + piece[1..] == piece;
    }
  }
}

=== FILE: tally.dfy ===
/** The poll tally engine shared by the leaderboard widget and the polls page: count
    the vote rows per roster team, total them, give each team its share of the
    total, and rank the teams by count. The ranking is `Array.prototype.sort`, which
    ECMAScript 2019 (section 22.1.3.27 of ECMA-262, 10th edition) requires to be
    stable, so teams with equal counts keep their roster order. */
module PollTally {
  import opened Rows
  import opened Seqs

  /** One line of the ranked list: a team, its vote count and its share of the total. */
  datatype Standing = Standing(name: string, votes: nat, percentage: real)

  /** What the tally hands to the screen: the signed-in user's vote (if any), the
      ranked teams and the total number of counted votes. */
  datatype TallyResult = TallyResult(userVote: Option<Vote>, ranked: seq<Standing>, totalVotes: nat)

  // ---------------------------------------------------------------------------
  // The signed-in user's vote

  /** Position `i` holds the first vote row cast by `userId`. */
  predicate IsFirstVoteOf(votes: seq<Vote>, userId: string, i: int) {
    && 0 <= i < |votes|
    && votes[i].userId == userId
    && forall j :: 0 <= j < i ==> votes[j].userId != userId
  }

  /** `votes.find(vote => vote.user_id === userId)`: the first row cast by the user,
      absent when the user has no row. */
  function FindVote(votes: seq<Vote>, userId: string): (r: Option<Vote>)
    ensures r.None? <==> forall i :: 0 <= i < |votes| ==> votes[i].userId != userId
    ensures r.Some? ==> exists i :: IsFirstVoteOf(votes, userId, i) && votes[i] == r.value
  {
    if votes == [] then None
    else if votes[0].userId == userId then
      assert IsFirstVoteOf(votes, userId, 0);
      Some(votes[0])
    else
      var r := FindVote(votes[1..], userId);
      assert forall i :: IsFirstVoteOf(votes[1..], userId, i) ==> IsFirstVoteOf(votes, userId, i + 1);
      r
  }

  /** Appending a row changes the user's vote only when the user had none and the
      new row is the user's. */
  lemma {:induction false} FindVoteAppend(votes: seq<Vote>, v: Vote, userId: string)
    ensures FindVote(votes + [v], userId)
         == if FindVote(votes, userId).Some? then FindVote(votes, userId)
            else if v.userId == userId then Some(v) else None
  {
    if votes == [] {
      assert votes + [v] == [v];
    } else {
      assert (votes + [v])[1..] == votes[1..] + [v];
      FindVoteAppend(votes[1..], v, userId);
    }
  }

  // ---------------------------------------------------------------------------
  // Counting

  /** `votes.filter(vote => vote.team_name === team).length` */
  function VotesFor(votes: seq<Vote>, team: string): (n: nat)
    ensures n <= |votes|
    ensures n == 0 <==> forall i :: 0 <= i < |votes| ==> votes[i].teamName != team
  {
    if votes == [] then 0
    else
      assert forall i :: 0 < i < |votes| ==> votes[1..][i - 1] == votes[i];
      (if votes[0].teamName == team then 1 else 0) + VotesFor(votes[1..], team)
  }

  /** The number of vote rows that name some team of `roster`: the reference the
      total is measured against. */
  function VotesInRoster(votes: seq<Vote>, roster: seq<string>): nat {
    if votes == [] then 0
    else (if votes[0].teamName in roster then 1 else 0) + VotesInRoster(votes[1..], roster)
  }

  /** The sum of the counts of `teams`, each taken once per occurrence in `teams`. */
  function SumVotes(teams: seq<string>, votes: seq<Vote>): nat {
    if teams == [] then 0 else VotesFor(votes, teams[0]) + SumVotes(teams[1..], votes)
  }

  /** `Object.values(voteCounts).reduce((sum, count) => sum + count, 0)`: the counts
      live in a record keyed by team name, so each distinct roster name is summed
      once. The total is the number of votes naming a roster team; votes for any
      other name are not counted. */
  function TotalVotes(roster: seq<string>, votes: seq<Vote>): (n: nat)
    ensures n == VotesInRoster(votes, roster)
  {
    var teams := Dedup(roster);
    SumVotesNoDup(teams, votes);
    VotesInRosterSameMembers(votes, teams, roster);
    SumVotes(teams, votes)
  }

  lemma {:induction false} VotesInRosterSameMembers(votes: seq<Vote>, a: seq<string>, b: seq<string>)
    requires forall x :: x in a <==> x in b
    ensures VotesInRoster(votes, a) == VotesInRoster(votes, b)
  {
    if votes != [] {
      VotesInRosterSameMembers(votes[1..], a, b);
    }
  }

  lemma {:induction false} VotesInRosterCons(votes: seq<Vote>, t: string, rest: seq<string>)
    requires t !in rest
    ensures VotesInRoster(votes, [t] + rest) == VotesFor(votes, t) + VotesInRoster(votes, rest)
  {
    if votes != [] {
      VotesInRosterCons(votes[1..], t, rest);
    }
  }

  lemma {:induction false} VotesInEmptyRoster(votes: seq<Vote>)
    ensures VotesInRoster(votes, []) == 0
  {
    if votes != [] {
      VotesInEmptyRoster(votes[1..]);
    }
  }

  /** Over a duplicate-free list of teams, the sum of their counts is the number of
      votes naming one of them. */
  lemma {:induction false} SumVotesNoDup(teams: seq<string>, votes: seq<Vote>)
    requires NoDup(teams)
    ensures SumVotes(teams, votes) == VotesInRoster(votes, teams)
  {
    if teams == [] {
      VotesInEmptyRoster(votes);
    } else {
      assert NoDup(teams[1..]);
      SumVotesNoDup(teams[1..], votes);
      assert teams[0] !in teams[1..];
      VotesInRosterCons(votes, teams[0], teams[1..]);
      assert [teams[0]] + teams[1..] == teams;
    }
  }

  /** A team's count never exceeds the number of votes naming any roster team. */
  lemma {:induction false} VotesForAtMostTotal(votes: seq<Vote>, roster: seq<string>, team: string)
    requires team in roster
    ensures VotesFor(votes, team) <= VotesInRoster(votes, roster)
  {
    if votes != [] {
      VotesForAtMostTotal(votes[1..], roster, team);
    }
  }

  // ---------------------------------------------------------------------------
  // Percentages

  /** `totalVotes > 0 ? (count / totalVotes) * 100 : 0`, in exact arithmetic. */
  function Percent(count: nat, total: nat): (p: real)
    ensures total == 0 ==> p == 0.0
    ensures total > 0 ==> p * (total as real) == (count as real) * 100.0
  {
    if total > 0 then
      var c, t := count as real, total as real;
      assert c / t * 100.0 * t == c * 100.0 by {
        assert c / t * t == c;
      }
      c / t * 100.0
    else 0.0
  }

  /** A count that does not exceed the total is a share between 0 and 100. */
  lemma PercentBounded(count: nat, total: nat)
    requires count <= total
    ensures 0.0 <= Percent(count, total) <= 100.0
  {
    if total > 0 {
      var c, t := count as real, total as real;
      assert c / t <= 1.0 by {
        assert c / t * t == c;
      }
    }
  }

  // ---------------------------------------------------------------------------
  // The roster-ordered standings and their ranking

  /** `TEAMS.map(team => ({ name, votes, percentage }))`, before sorting. */
  function Unranked(teams: seq<string>, votes: seq<Vote>, total: nat): (r: seq<Standing>)
    ensures |r| == |teams|
    ensures forall i :: 0 <= i < |r| ==> r[i].name == teams[i]
    ensures forall s | s in r :: s.votes == VotesFor(votes, s.name) && s.percentage == Percent(s.votes, total)
  {
    if teams == [] then []
    else
      var n := VotesFor(votes, teams[0]);
      [Standing(teams[0], n, Percent(n, total))] + Unranked(teams[1..], votes, total)
  }

  /** The team names of a list of standings, in order. */
  function Names(s: seq<Standing>): (r: seq<string>)
    ensures |r| == |s|
    ensures forall i :: 0 <= i < |s| ==> r[i] == s[i].name
  {
    if s == [] then [] else [s[0].name] + Names(s[1..])
  }

  /** Counts never increase along `s`. */
  predicate RankedByVotes(s: seq<Standing>) {
    forall i, j :: 0 <= i < j < |s| ==> s[i].votes >= s[j].votes
  }

  /** The standings of `s` with exactly `k` votes, in their order in `s`. */
  function WithVotes(s: seq<Standing>, k: nat): seq<Standing> {
    if s == [] then [] else (if s[0].votes == k then [s[0]] else []) + WithVotes(s[1..], k)
  }

  /** Place `h` before the first standing with no more votes than `h`: one step of a
      stable insertion sort that runs from the back of the list to the front. */
  function Insert(h: Standing, s: seq<Standing>): (r: seq<Standing>)
    ensures multiset(r) == multiset(s) + multiset{h}
  {
    if s == [] || h.votes >= s[0].votes then
      [h] + s
    else
      assert s == [s[0]] + s[1..];
      [s[0]] + Insert(h, s[1..])
  }

  lemma {:induction false} InsertNames(h: Standing, s: seq<Standing>)
    ensures multiset(Names(Insert(h, s))) == multiset(Names(s)) + multiset{h.name}
  {
    if s == [] || h.votes >= s[0].votes {
      assert ([h] + s)[1..] == s;
    } else {
      var r := Insert(h, s);
      assert r[1..] == Insert(h, s[1..]);
      InsertNames(h, s[1..]);
    }
  }

  lemma {:induction false} InsertRanked(h: Standing, s: seq<Standing>)
    requires RankedByVotes(s)
    ensures RankedByVotes(Insert(h, s))
  {
    if s != [] && h.votes < s[0].votes {
      var tail := Insert(h, s[1..]);
      InsertRanked(h, s[1..]);
      forall x | x in tail ensures x.votes <= s[0].votes {
        assert x in multiset(tail);
      }
    }
  }

  lemma {:induction false} InsertWithVotes(h: Standing, s: seq<Standing>, k: nat)
    ensures WithVotes(Insert(h, s), k) == (if h.votes == k then [h] else []) + WithVotes(s, k)
  {
    if s == [] || h.votes >= s[0].votes {
      assert ([h] + s)[1..] == s;
    } else {
      var r := Insert(h, s);
      assert r[1..] == Insert(h, s[1..]);
      InsertWithVotes(h, s[1..], k);
    }
  }

  /** `standings.sort((a, b) => b.votes - a.votes)` under the stable sort of
      ECMAScript 2019: the result is ranked by non-increasing count and is a
      permutation of the input (SortStable adds that equal counts keep their order). */
  function SortByVotes(s: seq<Standing>): (r: seq<Standing>)
    ensures RankedByVotes(r)
    ensures multiset(r) == multiset(s)
  {
    if s == [] then []
    else
      var rest := SortByVotes(s[1..]);
      assert s == [s[0]] + s[1..];
      InsertRanked(s[0], rest);
      Insert(s[0], rest)
  }

  /** Sorting permutes the team names. */
  lemma {:induction false} SortNames(s: seq<Standing>)
    ensures multiset(Names(SortByVotes(s))) == multiset(Names(s))
  {
    if s != [] {
      SortNames(s[1..]);
      InsertNames(s[0], SortByVotes(s[1..]));
      assert Names(s) == [s[0].name] + Names(s[1..]);
    }
  }

  /** Stability: for every count `k`, the standings with `k` votes appear in the
      sorted list in exactly their input order. */
  lemma {:induction false} SortStable(s: seq<Standing>, k: nat)
    ensures WithVotes(SortByVotes(s), k) == WithVotes(s, k)
  {
    if s != [] {
      SortStable(s[1..], k);
      InsertWithVotes(s[0], SortByVotes(s[1..]), k);
    }
  }

  // ---------------------------------------------------------------------------
  // The tally

  /** The roster teams that received exactly `k` votes, in roster order. */
  function TeamsWithVotes(roster: seq<string>, votes: seq<Vote>, k: nat): seq<string> {
    if roster == [] then []
    else (if VotesFor(votes, roster[0]) == k then [roster[0]] else []) + TeamsWithVotes(roster[1..], votes, k)
  }

  lemma {:induction false} UnrankedWithVotes(teams: seq<string>, votes: seq<Vote>, total: nat, k: nat)
    ensures Names(WithVotes(Unranked(teams, votes, total), k)) == TeamsWithVotes(teams, votes, k)
  {
    if teams != [] {
      var u := Unranked(teams, votes, total);
      assert u[1..] == Unranked(teams[1..], votes, total);
      UnrankedWithVotes(teams[1..], votes, total, k);
      var head := if u[0].votes == k then [u[0]] else [];
      NamesAppend(head, WithVotes(u[1..], k));
    }
  }

  lemma {:induction false} NamesAppend(a: seq<Standing>, b: seq<Standing>)
    ensures Names(a + b) == Names(a) + Names(b)
  {
    if a != [] {
      assert (a + b)[1..] == a[1..] + b;
      NamesAppend(a[1..], b);
    }
  }

  /** The whole tally for a roster, the fetched vote rows and the signed-in user:
      - the user's vote is absent when nobody is signed in, else the user's first row;
      - the total is the number of votes naming a roster team;
      - the ranking is a permutation of the roster, ordered by non-increasing count,
        and the teams with any given count appear in roster order;
      - every line carries its team's count and its share of the total. */
  function Tally(roster: seq<string>, votes: seq<Vote>, user: Option<User>): (t: TallyResult)
    ensures user.None? ==> t.userVote.None?
    ensures user.Some? ==> t.userVote == FindVote(votes, user.value.id)
    ensures t.totalVotes == VotesInRoster(votes, roster)
    ensures RankedByVotes(t.ranked)
    ensures multiset(Names(t.ranked)) == multiset(roster)
    ensures forall k :: Names(WithVotes(t.ranked, k)) == TeamsWithVotes(roster, votes, k)
    ensures forall s | s in t.ranked ::
              s.votes == VotesFor(votes, s.name) && s.percentage == Percent(s.votes, t.totalVotes)
  {
    var userVote := if user.Some? then FindVote(votes, user.value.id) else None;
    var total := TotalVotes(roster, votes);
    var unranked := Unranked(roster, votes, total);
    var ranked := SortByVotes(unranked);
    assert Names(unranked) == roster;
    SortNames(unranked);
    assert forall k :: Names(WithVotes(ranked, k)) == TeamsWithVotes(roster, votes, k) by {
      forall k ensures Names(WithVotes(ranked, k)) == TeamsWithVotes(roster, votes, k) {
        SortStable(unranked, k);
        UnrankedWithVotes(roster, votes, total, k);
      }
    }
    assert forall s | s in ranked :: s in unranked by {
      forall s | s in ranked ensures s in unranked { assert s in multiset(ranked); }
    }
    TallyResult(userVote, ranked, total)
  }

  // ---------------------------------------------------------------------------
  // Properties of the tally

  /** The sum of the counts on a list of standings. */
  function SumCounts(s: seq<Standing>): nat {
    if s == [] then 0 else s[0].votes + SumCounts(s[1..])
  }

  /** The sum of the percentages on a list of standings. */
  function SumPercent(s: seq<Standing>): real {
    if s == [] then 0.0 else s[0].percentage + SumPercent(s[1..])
  }

  lemma {:induction false} InsertSums(h: Standing, s: seq<Standing>)
    ensures SumCounts(Insert(h, s)) == h.votes + SumCounts(s)
    ensures SumPercent(Insert(h, s)) == h.percentage + SumPercent(s)
  {
    if s == [] || h.votes >= s[0].votes {
      assert ([h] + s)[1..] == s;
    } else {
      var r := Insert(h, s);
      assert r[1..] == Insert(h, s[1..]);
      InsertSums(h, s[1..]);
    }
  }

  lemma {:induction false} SortSums(s: seq<Standing>)
    ensures SumCounts(SortByVotes(s)) == SumCounts(s)
    ensures SumPercent(SortByVotes(s)) == SumPercent(s)
  {
    if s != [] {
      SortSums(s[1..]);
      InsertSums(s[0], SortByVotes(s[1..]));
    }
  }

  lemma PercentAdd(a: nat, b: nat, total: nat)
    ensures Percent(a, total) + Percent(b, total) == Percent(a + b, total)
  {
    if total > 0 {
      var t := total as real;
      assert (a as real) / t + (b as real) / t == ((a + b) as real) / t;
    }
  }

  lemma {:induction false} UnrankedSums(teams: seq<string>, votes: seq<Vote>, total: nat)
    ensures SumCounts(Unranked(teams, votes, total)) == SumVotes(teams, votes)
    ensures SumPercent(Unranked(teams, votes, total)) == Percent(SumVotes(teams, votes), total)
  {
    if teams != [] {
      var u := Unranked(teams, votes, total);
      assert u[1..] == Unranked(teams[1..], votes, total);
      UnrankedSums(teams[1..], votes, total);
      PercentAdd(VotesFor(votes, teams[0]), SumVotes(teams[1..], votes), total);
    }
  }

  /** With a duplicate-free roster (the fixed team list is one), the counts on the
      ranked list add up to the total, and when some vote was counted the
      percentages add up to exactly 100. */
  lemma RankedSumsMatchTotal(roster: seq<string>, votes: seq<Vote>, user: Option<User>)
    requires NoDup(roster)
    ensures SumCounts(Tally(roster, votes, user).ranked) == Tally(roster, votes, user).totalVotes
    ensures Tally(roster, votes, user).totalVotes > 0 ==> SumPercent(Tally(roster, votes, user).ranked) == 100.0
  {
    var total := TotalVotes(roster, votes);
    var u := Unranked(roster, votes, total);
    assert Tally(roster, votes, user).ranked == SortByVotes(u);
    assert Tally(roster, votes, user).totalVotes == total;
    DedupNoDup(roster);
    assert total == SumVotes(roster, votes);
    SortSums(u);
    UnrankedSums(roster, votes, total);
    if total > 0 {
      PercentOfWhole(total);
    }
  }

  lemma PercentOfWhole(total: nat)
    requires total > 0
    ensures Percent(total, total) == 100.0
  {
    var t := total as real;
    assert t / t == 1.0;
  }

  /** Every percentage lies between 0 and 100, and all of them are 0 when no vote
      was counted. */
  lemma PercentagesBounded(roster: seq<string>, votes: seq<Vote>, user: Option<User>)
    ensures forall s | s in Tally(roster, votes, user).ranked :: 0.0 <= s.percentage <= 100.0
    ensures Tally(roster, votes, user).totalVotes == 0 ==>
              forall s | s in Tally(roster, votes, user).ranked :: s.percentage == 0.0
  {
    var t := Tally(roster, votes, user);
    forall s | s in t.ranked ensures 0.0 <= s.percentage <= 100.0 {
      assert s.name in Names(t.ranked) by {
        var i :| 0 <= i < |t.ranked| && t.ranked[i] == s;
        assert Names(t.ranked)[i] == s.name;
      }
      assert s.name in multiset(roster);
      VotesForAtMostTotal(votes, roster, s.name);
      PercentBounded(s.votes, t.totalVotes);
    }
  }

  lemma {:induction false} VotesForAppend(a: seq<Vote>, b: seq<Vote>, team: string)
    ensures VotesFor(a + b, team) == VotesFor(a, team) + VotesFor(b, team)
  {
    if a == [] {
      assert a + b == b;
    } else {
      assert (a + b)[1..] == a[1..] + b;
      VotesForAppend(a[1..], b, team);
    }
  }

  lemma VotesForRemoveAt(b: seq<Vote>, i: int, team: string)
    requires 0 <= i < |b|
    ensures VotesFor(b, team) == VotesFor([b[i]], team) + VotesFor(b[..i] + b[i + 1..], team)
  {
    assert b == b[..i] + [b[i]] + b[i + 1..];
    VotesForAppend(b[..i] + [b[i]], b[i + 1..], team);
    VotesForAppend(b[..i], [b[i]], team);
    VotesForAppend(b[..i], b[i + 1..], team);
  }

  lemma MultisetRemoveAt<T>(a: seq<T>, b: seq<T>, i: int)
    requires multiset(a) == multiset(b) && a != [] && 0 <= i < |b| && b[i] == a[0]
    ensures multiset(a[1..]) == multiset(b[..i] + b[i + 1..])
  {
    var x := a[0];
    assert b == b[..i] + [x] + b[i + 1..];
    assert multiset(b) == multiset(b[..i]) + multiset{x} + multiset(b[i + 1..]);
    assert a == [x] + a[1..];
    calc {
      multiset(a[1..]);
      multiset(a) - multiset{x};
      multiset(b) - multiset{x};
      multiset(b[..i] + b[i + 1..]);
    }
  }

  /** A team's count depends only on the multiset of vote rows, not on their order. */
  lemma {:induction false} VotesForPermutation(a: seq<Vote>, b: seq<Vote>, team: string)
    requires multiset(a) == multiset(b)
    ensures VotesFor(a, team) == VotesFor(b, team)
    decreases |a|
  {
    if a == [] {
      assert |b| == |multiset(b)| == 0;
    } else {
      assert a[0] in multiset(b);
      var i :| 0 <= i < |b| && b[i] == a[0];
      MultisetRemoveAt(a, b, i);
      VotesForPermutation(a[1..], b[..i] + b[i + 1..], team);
      VotesForRemoveAt(b, i, team);
    }
  }

  lemma {:induction false} SumVotesCongruent(teams: seq<string>, a: seq<Vote>, b: seq<Vote>)
    requires forall t | t in teams :: VotesFor(a, t) == VotesFor(b, t)
    ensures SumVotes(teams, a) == SumVotes(teams, b)
  {
    if teams != [] {
      SumVotesCongruent(teams[1..], a, b);
    }
  }

  lemma {:induction false} UnrankedCongruent(teams: seq<string>, a: seq<Vote>, b: seq<Vote>, total: nat)
    requires forall t | t in teams :: VotesFor(a, t) == VotesFor(b, t)
    ensures Unranked(teams, a, total) == Unranked(teams, b, total)
  {
    if teams != [] {
      UnrankedCongruent(teams[1..], a, b, total);
    }
  }

  /** Two vote lists that agree on every roster team's count give the same ranking
      and the same total. */
  lemma SameCountsSameRanking(roster: seq<string>, a: seq<Vote>, b: seq<Vote>, user: Option<User>)
    requires forall t | t in roster :: VotesFor(a, t) == VotesFor(b, t)
    ensures Tally(roster, a, user).ranked == Tally(roster, b, user).ranked
    ensures Tally(roster, a, user).totalVotes == Tally(roster, b, user).totalVotes
  {
    SumVotesCongruent(Dedup(roster), a, b);
    UnrankedCongruent(roster, a, b, TotalVotes(roster, a));
  }

  /** The ranking and the total do not depend on the order in which the backend
      returned the vote rows. */
  lemma VoteOrderIrrelevant(roster: seq<string>, a: seq<Vote>, b: seq<Vote>, user: Option<User>)
    requires multiset(a) == multiset(b)
    ensures Tally(roster, a, user).ranked == Tally(roster, b, user).ranked
    ensures Tally(roster, a, user).totalVotes == Tally(roster, b, user).totalVotes
  {
    forall t | t in roster ensures VotesFor(a, t) == VotesFor(b, t) {
      VotesForPermutation(a, b, t);
    }
    SameCountsSameRanking(roster, a, b, user);
  }

  /** A vote naming a team outside the roster changes neither any count nor the total. */
  lemma UnknownTeamIgnored(roster: seq<string>, votes: seq<Vote>, v: Vote, user: Option<User>)
    requires v.teamName !in roster
    ensures Tally(roster, votes + [v], user).ranked == Tally(roster, votes, user).ranked
    ensures Tally(roster, votes + [v], user).totalVotes == Tally(roster, votes, user).totalVotes
  {
    forall t | t in roster ensures VotesFor(votes + [v], t) == VotesFor(votes, t) {
      VotesForAppend(votes, [v], t);
    }
    SameCountsSameRanking(roster, votes + [v], votes, user);
  }

  /** A new vote for a team adds exactly one to that team's count. */
  lemma VoteAddsOne(votes: seq<Vote>, v: Vote)
    ensures VotesFor(votes + [v], v.teamName) == VotesFor(votes, v.teamName) + 1
    ensures forall t | t != v.teamName :: VotesFor(votes + [v], t) == VotesFor(votes, t)
  {
    VotesForAppend(votes, [v], v.teamName);
    forall t | t != v.teamName ensures VotesFor(votes + [v], t) == VotesFor(votes, t) {
      VotesForAppend(votes, [v], t);
    }
  }

  lemma {:induction false} WithVotesMembers(s: seq<Standing>, k: nat)
    ensures forall x :: x in WithVotes(s, k) <==> x in s && x.votes == k
  {
    if s != [] {
      WithVotesMembers(s[1..], k);
      assert s == [s[0]] + s[1..];
    }
  }

  /** Two ranked lists with the same per-count sub-lists start with the same standing. */
  lemma RankedSameHead(a: seq<Standing>, b: seq<Standing>)
    requires RankedByVotes(a) && RankedByVotes(b) && a != [] && b != []
    requires forall k :: WithVotes(a, k) == WithVotes(b, k)
    ensures a[0] == b[0]
  {
    var m, n := a[0].votes, b[0].votes;
    WithVotesMembers(a, m);
    WithVotesMembers(b, m);
    WithVotesMembers(a, n);
    WithVotesMembers(b, n);
    assert a[0] in WithVotes(a, m);
    assert b[0] in WithVotes(b, n);
    assert n >= m by {
      var x :| x in b && x.votes == m;
      var j :| 0 <= j < |b| && b[j] == x;
    }
    assert m >= n by {
      var x :| x in a && x.votes == n;
      var j :| 0 <= j < |a| && a[j] == x;
    }
    assert WithVotes(a, m)[0] == a[0];
    assert WithVotes(b, m)[0] == b[0];
    assert WithVotes(a, m) == WithVotes(b, m);
  }

  /** Equal heads leave equal per-count sub-lists for the tails. */
  lemma SameTails(a: seq<Standing>, b: seq<Standing>, k: nat)
    requires a != [] && b != [] && a[0] == b[0]
    requires WithVotes(a, k) == WithVotes(b, k)
    ensures WithVotes(a[1..], k) == WithVotes(b[1..], k)
  {
    var wa, wb := WithVotes(a, k), WithVotes(b, k);
    if a[0].votes == k {
      assert wa == [a[0]] + WithVotes(a[1..], k);
      assert wb == [b[0]] + WithVotes(b[1..], k);
      assert wa[1..] == WithVotes(a[1..], k);
      assert wb[1..] == WithVotes(b[1..], k);
    } else {
      assert wa == WithVotes(a[1..], k);
      assert wb == WithVotes(b[1..], k);
    }
  }

  lemma NotRankedEmpty(a: seq<Standing>, b: seq<Standing>)
    requires a == [] && b != []
    ensures WithVotes(a, b[0].votes) != WithVotes(b, b[0].votes)
  {
  }

  /** A ranked list is determined by its per-count sub-lists: two ranked lists that
      list the standings of every count in the same order are equal. */
  lemma {:induction false} RankedUnique(a: seq<Standing>, b: seq<Standing>)
    requires RankedByVotes(a) && RankedByVotes(b)
    requires forall k :: WithVotes(a, k) == WithVotes(b, k)
    ensures a == b
    decreases |a|
  {
    if a == [] && b != [] {
      NotRankedEmpty(a, b);
    } else if a != [] && b == [] {
      NotRankedEmpty(b, a);
    } else if a != [] {
      RankedSameHead(a, b);
      forall k ensures WithVotes(a[1..], k) == WithVotes(b[1..], k) {
        SameTails(a, b, k);
      }
      RankedUnique(a[1..], b[1..]);
      assert a == [a[0]] + a[1..] && b == [b[0]] + b[1..];
    }
  }

  /** SortByVotes is THE stable sort by non-increasing count: any ranked list that
      keeps every count's standings in input order is exactly its result. */
  lemma StableSortIsUnique(s: seq<Standing>, r: seq<Standing>)
    requires RankedByVotes(r)
    requires forall k :: WithVotes(r, k) == WithVotes(s, k)
    ensures r == SortByVotes(s)
  {
    forall k ensures WithVotes(r, k) == WithVotes(SortByVotes(s), k) {
      SortStable(s, k);
    }
    RankedUnique(r, SortByVotes(s));
  }
}

=== FILE: tally_examples.dfy ===
/** Worked instances of the poll tally: each pins the whole result for a small
    roster, so that the general contracts of `PollTally.Tally` can be checked
    against concrete numbers. */
module TallyExamples {
  import opened Rows
  import opened PollTally

  /** A vote row for `team` cast by `userId` (the other columns do not matter here). */
  function Ballot(userId: string, team: string): (v: Vote)
    ensures v.userId == userId && v.teamName == team
  {
    Vote("v-" + userId, "p", userId, userId + "@example.org", team, "t")
  }

  /** Two votes for Red and one for Blue rank Red first with two thirds of the total. */
  lemma RedBlueExample()
    ensures var t := Tally(["Red", "Blue"], [Ballot("a", "Red"), Ballot("b", "Blue"), Ballot("c", "Red")], None);
            && t.totalVotes == 3
            && t.ranked == [Standing("Red", 2, 200.0 / 3.0), Standing("Blue", 1, 100.0 / 3.0)]
  {
    var votes := [Ballot("a", "Red"), Ballot("b", "Blue"), Ballot("c", "Red")];
    var red, blue := Standing("Red", 2, 200.0 / 3.0), Standing("Blue", 1, 100.0 / 3.0);
    assert VotesFor(votes, "Red") == 2 && VotesFor(votes, "Blue") == 1;
    assert VotesInRoster(votes, ["Red", "Blue"]) == 3;
    assert Percent(2, 3) == 200.0 / 3.0 && Percent(1, 3) == 100.0 / 3.0;
    assert Unranked(["Red", "Blue"], votes, 3) == [red, blue];
    assert SortByVotes([blue]) == [blue];
    assert SortByVotes([red, blue]) == Insert(red, [blue]) == [red, blue];
  }

  /** With no votes every team has 0 votes and 0 percent, in roster order. */
  lemma NoVotesExample()
    ensures var t := Tally(["Red", "Blue"], [], None);
            && t.totalVotes == 0
            && t.ranked == [Standing("Red", 0, 0.0), Standing("Blue", 0, 0.0)]
  {
  }

  /** The counts of the tie example: A and B tie on 2 votes, C has 1. */
  predicate TieCounted(votes: seq<Vote>) {
    VotesFor(votes, "A") == 2 && VotesFor(votes, "B") == 2 && VotesFor(votes, "C") == 1
  }

  /** The vote rows of the tie example. */
  function TieVotes(): (votes: seq<Vote>)
    ensures |votes| == 5
  {
    [Ballot("1", "B"), Ballot("2", "A"), Ballot("3", "C"), Ballot("4", "B"), Ballot("5", "A")]
  }

  lemma TieCounts()
    ensures TieCounted(TieVotes())
  {
    var v := TieVotes();
    assert v[1..][1..][1..][1..][1..] == [];
  }

  /** The tie example's standings, in roster order. */
  const TieStandings: seq<Standing> := [Standing("A", 2, 40.0), Standing("B", 2, 40.0), Standing("C", 1, 20.0)]

  lemma TieSorted()
    ensures SortByVotes(TieStandings) == TieStandings
  {
    var a, b, c := TieStandings[0], TieStandings[1], TieStandings[2];
    assert TieStandings[1..] == [b, c] && TieStandings[2..] == [c];
    assert SortByVotes([c]) == [c];
    assert SortByVotes([b, c]) == Insert(b, [c]) == [b, c];
  }

  lemma TieTotal(votes: seq<Vote>)
    requires TieCounted(votes)
    ensures TotalVotes(["A", "B", "C"], votes) == 5
  {
    var roster := ["A", "B", "C"];
    SumVotesNoDup(roster, votes);
    assert roster[1..] == ["B", "C"] && roster[1..][1..] == ["C"] && roster[1..][1..][1..] == [];
    assert SumVotes(["C"], votes) == 1;
    assert SumVotes(["B", "C"], votes) == 3;
  }

  lemma TieUnranked(votes: seq<Vote>)
    requires TieCounted(votes)
    ensures Unranked(["A", "B", "C"], votes, 5) == TieStandings
  {
    var roster := ["A", "B", "C"];
    assert Percent(2, 5) == 40.0 && Percent(1, 5) == 20.0;
    assert roster[1..] == ["B", "C"] && roster[1..][1..] == ["C"] && roster[1..][1..][1..] == [];
    assert Unranked(["C"], votes, 5) == [TieStandings[2]];
    assert Unranked(["B", "C"], votes, 5) == TieStandings[1..];
  }

  lemma TieRanked(votes: seq<Vote>)
    requires TieCounted(votes)
    ensures Tally(["A", "B", "C"], votes, None).ranked == TieStandings
  {
    TieTotal(votes);
    TieUnranked(votes);
    TieSorted();
  }

  /** A tie keeps roster order: whenever A and B have 2 votes each and C has 1, the
      ranking is A, B, C, with A ahead of B because A comes first in the roster,
      whatever the order the votes came in. */
  lemma TieKeepsRosterOrder(votes: seq<Vote>)
    requires TieCounted(votes)
    ensures Names(Tally(["A", "B", "C"], votes, None).ranked) == ["A", "B", "C"]
  {
    TieRanked(votes);
    TieNames();
  }

  lemma TieNames()
    ensures Names(TieStandings) == ["A", "B", "C"]
  {
    var n := Names(TieStandings);
    assert n[0] == "A" && n[1] == "B" && n[2] == "C";
  }

  /** The votes B, A, C, B, A meet that condition. */
  lemma TieExample()
    ensures Names(Tally(["A", "B", "C"], TieVotes(), None).ranked) == ["A", "B", "C"]
  {
    TieCounts();
    TieKeepsRosterOrder(TieVotes());
  }

  /** The vote indicator finds the voter's row and nobody else's. */
  lemma UserVoteExample()
    ensures var votes := [Ballot("u1", "Blue")];
            && Tally(["Red", "Blue"], votes, Some(User("u1", None))).userVote == Some(Ballot("u1", "Blue"))
            && Tally(["Red", "Blue"], votes, Some(User("u2", None))).userVote.None?
  {
  }
}

=== FILE: wifi_gate.dfy ===
/** The site gate (src/contexts/WifiGateContext.tsx): one bit, `isAuthenticated`,
    that starts false and is set by entering the site password. The password is a
    fixed constant of the site; it is carried here as the gate's `secret` rather than
    written out. */
module WifiGate {

  /** The gate's state: the site password and whether it has been entered. */
  datatype Gate = Gate(secret: string, isAuthenticated: bool)

  /** What `authenticate` returns, with the state it leaves behind. */
  datatype AuthStep = AuthStep(accepted: bool, gate: Gate)

  /** The provider's initial state. */
  function Init(secret: string): (g: Gate)
    ensures !g.isAuthenticated
    ensures forall password :: Authenticate(g, password).accepted <==> password == secret
  {
    Gate(secret, false)
  }

  /** `authenticate(password)`: accepted exactly when the password equals the site
      password, which then sets the bit; a wrong password changes nothing. */
  function Authenticate(g: Gate, password: string): (r: AuthStep)
    ensures r.accepted <==> password == g.secret
    ensures r.accepted ==> r.gate == g.(isAuthenticated := true)
    ensures !r.accepted ==> r.gate == g
  {
    if password == g.secret then AuthStep(true, g.(isAuthenticated := true)) else AuthStep(false, g)
  }

  /** The state after a series of attempts: the password never changes, and attempts
      that never name it leave a closed gate as it was. */
  function Run(g: Gate, attempts: seq<string>): (r: Gate)
    ensures r.secret == g.secret
    ensures attempts == [] ==> r == g
    ensures !g.isAuthenticated && g.secret !in attempts ==> r == g
    decreases |attempts|
  {
    if attempts == [] then g else Run(Authenticate(g, attempts[0]).gate, attempts[1..])
  }

  /** No attempt ever clears the bit, and the password never changes. */
  lemma {:induction false} RunMonotone(g: Gate, attempts: seq<string>)
    ensures g.isAuthenticated ==> Run(g, attempts).isAuthenticated
    ensures Run(g, attempts).secret == g.secret
    decreases |attempts|
  {
    if attempts != [] {
      RunMonotone(Authenticate(g, attempts[0]).gate, attempts[1..]);
    }
  }

  /** From a gate that was not yet passed (such as `Init(secret)`), a series of
      attempts passes it exactly when one of them is the site password. */
  lemma {:induction false} RunPassesIff(g: Gate, attempts: seq<string>)
    requires !g.isAuthenticated
    ensures Run(g, attempts).isAuthenticated <==> g.secret in attempts
    decreases |attempts|
  {
    if attempts != [] {
      var next := Authenticate(g, attempts[0]).gate;
      if attempts[0] == g.secret {
        RunMonotone(next, attempts[1..]);
      } else {
        RunPassesIff(next, attempts[1..]);
        assert attempts == [attempts[0]] + attempts[1..];
      }
    }
  }

  /** A visitor passes the gate exactly when one of their attempts is the site password. */
  lemma GateOpensIff(secret: string, attempts: seq<string>)
    ensures Run(Init(secret), attempts).isAuthenticated <==> secret in attempts
  {
    RunPassesIff(Init(secret), attempts);
  }
}
